=== FILE: README.md ===
# Affiliation Graph Model generator, in Dafny

This project models `agm`, the generator of `ngraph.agmgen`. It takes an
affiliation graph, whose links run from member nodes (people) to community
nodes (mailing lists, groups), and builds a social graph over the members.
It works in four steps:

1. **Weight initialisation.** Each affiliation link gets a membership weight.
   A number already stored on the link is kept. Any other value is replaced by
   `pow(degree of the community, -coefficient) * scale`. The defaults are
   coefficient 0.6 and scale 1.3.
2. **Classification.** A node with no links, or whose first link points at it,
   is a community. Every other node is a member.
3. **Projection.** Every member is added to an empty social graph.
4. **Edge building.** For each member `source`, a neighbour map collects every
   co-member that is not `source` and not yet linked to it in either
   direction. Each co-member's value is the sum, over shared communities, of
   the two membership weights multiplied together. The map's keys are then
   visited in order. One random draw is taken per key, and the link
   `source -> neighbour` is added when the draw is at most
   `1 - pow(e, -weight)`.

Modules, one per component:

- `AffiliationGraph` (`affiliation.dfy`): nodes and links in insertion order,
  `getLinks` as `LinksOf`, the oriented traversal as `OutLinks`, and the
  classification rule `IsCommunityNode`.
- `Weights` (`weights.dfy`): the options, the default weight, the edge
  probability, and the in-place initialisation pass.
- `SocialGraph` (`social.dfy`): the output graph with the library's `addNode`,
  `addLink` and `hasLink`, and the "no self-loop" and "one link per pair"
  invariants.
- `Affinity` (`affinity.dfy`): the neighbour map, including the JavaScript
  "truthy value" test. It has independent reference sums (`CommunityShare`,
  `ReferenceAffinity`) that the accumulation is proved to compute.
- `Sampling` (`sampling.dfy`): the random stream and `addEdgesMaybe`, with a
  recursive reference (`Picked`) of the links one turn accepts.
- `TrialLog` (`triallog.dfy`): the trial log, the directed pairs drawn for in
  draw order. Each member's turn extends it, and it explains every link of the
  result.
- `Agm` (`agm.dfy`): member projection, the member loop and the generator
  `Generate`. It also has `GenerateOnce`, the corrected generator described
  under "Findings".
- `Scenario` (`scenario.dfy`): the two graphs of the repository's tests.

Floating-point and random pieces are parameters:

- `Numerics` carries `Math.pow` and `Math.E`.
- `Random` is a stream of draws: the k-th call to `nextDouble` returns `draw(k)`.

The structural results hold whatever these parameters return.

## Model

| member | source | states |
|---|---|---|
| AffiliationGraph.ClassifyByDirection | index.js:127-134 | This is the classification rule `isCommunityNode`. If every link runs member -> community, a node is a community exactly when it has no outgoing link. So isolated nodes count as communities. |
| AffiliationGraph.ClassificationSameShape | index.js:46-49 | Classification runs after weights are initialised. Changing only link data never changes how a node is classified. |
| AffiliationGraph.CommunityDegreePositive | index.js:146-151 | The community a link points at has at least that link among its links. So the member count used by the default weight is at least 1. |
| AffiliationGraph.SharedAreMembers | index.js:127-134 | Two nodes that share a community are both members of the affiliation graph. So every neighbour is already a node of the social graph. |
| Weights.InitWeights | index.js:141-153 | After initialisation every link carries a number. Links with a number keep it unchanged. Nodes and link endpoints are unchanged. Two links without a number whose communities have the same degree get the same weight. |
| Weights.EnsureWeightsInitialized | index.js:137-154 | The in-place pass changes links one after another. It gives the same result as initialising every link against the untouched input. A link without a number gets `DefaultWeight`, the power-law default `pow(membersCount, -coefficient) * scale` of index.js:152, for its community's degree. |
| Weights.InitIdempotent | index.js:144 | Running initialisation a second time changes nothing. |
| Weights.InitNonNegative | index.js:138-152 | Suppose `pow` is non-negative for bases of at least 1, the scale is non-negative and every supplied weight is non-negative. Then every weight is non-negative after initialisation. The base is a member count, which `CommunityDegreePositive` shows is never 0. |
| SocialGraph.AppendFromSource | index.js:96-123 | New links all leave `source` and go to distinct nodes other than `source` that were not yet linked to it. Appending them keeps the graph free of self-loops and of two links on one unordered pair. |
| Affinity.Bump | index.js:103-110 | One accumulation step raises the neighbour's entry by exactly the new product, whether it adds to a truthy value or overwrites a missing or zero one. Every other entry is unchanged. The key set grows by that neighbour at most. |
| Affinity.SumUpWeights | index.js:90-111 | Walking one community's links raises each candidate's entry by that community's reference sum of weight products. A candidate (`Candidate`, the two guards of index.js:92-101) is a node other than the source with no link to or from it. Other nodes are skipped. A key is added only for a candidate the community leads to. |
| Affinity.ProcessCommunities | index.js:85-88 | Walking the source's communities raises each candidate's entry by the reference affinity over those communities. A key is added only for a candidate some community leads to. |
| Affinity.Accumulate | index.js:64-76 | The neighbour map's keys are distinct. They are exactly the candidates, in the sense of index.js:92-101, that one of the source's communities leads to. Each key maps to its reference affinity: the sum over communities of the products of the two weights. |
| Affinity.Without | index.js:98-101 | Used only by the corrected generator. Removing the members whose turn came earlier keeps a well-formed map: exactly the keys not removed, with their weights unchanged. |
| Affinity.ReachesIffSharesCommunity | index.js:76-88 | If every link runs member -> community, the traversal from `a` reaches exactly the nodes that share a community with `a`. |
| Affinity.AffinityZero | index.js:103-110 | If every membership weight is zero, every accumulated affinity is zero. |
| Affinity.AffinityNonNegative | index.js:103-110 | If membership weights are non-negative, every accumulated affinity is non-negative. |
| Affinity.AffinityMonotone | index.js:103-110 | Raising membership weights, all of them non-negative, never lowers the affinity of any pair. The two graphs have the same links in the same order, and only weights differ. |
| Affinity.OneLinkRaised | index.js:103-110 | Raising one link's weight, when every weight is non-negative, is such a raise. So `AffinityMonotone` covers raising a single membership weight. |
| Sampling.PickedHits | index.js:116-122 | In the reference of one turn, the link to a key is accepted exactly when that key's draw is at most `EdgeProbability` of its weight, `1 - pow(e, -weight)` of index.js:119. |
| Sampling.AddEdgesMaybe | index.js:113-124 | Exactly one draw is used per neighbour key. The link `source -> key` is added exactly when that key's draw is at most `EdgeProbability` of its weight. Every new link leaves `source` toward a key. No key gets two links. No node is added when the source and the keys are already nodes. |
| Sampling.ZeroWeightsAddNothing | index.js:116-122 | If every candidate's weight is zero, `pow(e, 0)` is 1 and no draw is exactly zero, sampling adds no link. |
| TrialLog.NeighbourhoodOf | index.js:90-111 | Every key of a member's neighbour map is a member that shares a community with it and is a candidate. Conversely, every such candidate is a key. |
| TrialLog.LogTurn | index.js:113-124 | One member's turn appends one trial per key to the log. Afterwards each logged pair is linked exactly when its draw is at most the pair's probability, and every link is a logged trial. |
| TrialLog.PairProbabilityMonotone | index.js:103-119 | If `pow(e, x)` is increasing in `x`, raising non-negative membership weights never lowers a pair's link probability `1 - pow(e, -affinity)`. |
| TrialLog.CoverTurn | index.js:90-124 | After a member's turn, each co-member it shares a community with is either linked to it in some direction or was tried from it. |
| TrialLog.CoverOnceTurn | index.js:90-124 | The same coverage for the corrected turn: each co-member is linked or tried in one of the two directions. |
| TrialLog.OrderTurn | index.js:52 | Members take their turns one after another. Appending a member's trials after trials that come only from members with earlier turns keeps the log in turn order: trial sources never go back to an earlier member. |
| TrialLog.PairsOnceTurn | index.js:98-101 | A turn that also skips every member whose turn came earlier adds no trial on an unordered pair already tried. |
| TrialLog.ZeroWeightsLogNoLinks | index.js:116-122 | If every weight is zero, `pow(e, 0)` is 1 and no draw is exactly zero, a log that explains the links leaves no link. |
| Agm.AddMemberNodes | index.js:49-62 | The projected graph has no links. Its nodes are exactly the affiliation nodes the classification rule calls members, each present once. When node ids are distinct, as the graph library keeps them, the members are added in the order the affiliation graph lists its nodes (`MembersIn`). |
| Agm.Prepare | index.js:46-49 | Initialisation keeps the graph's shape, so it keeps who shares a community with whom. The social graph starts with exactly the members, in the affiliation graph's node order, and no link. |
| Agm.SampleMembers | index.js:52-124 | After every member's turn the social graph has no self-loop and at most one link per unordered pair. The draws used equal the trials logged. Each trial's pair is linked exactly when its draw succeeds. The trials follow the members' turn order. Each member has a link or a trial toward each co-member. |
| Agm.SampleMembersOnce | index.js:52-124 | The same, for the corrected turn. In addition, no unordered pair is tried twice, and each pair of co-members is linked or tried in one direction. |
| Agm.Generate | index.js:27-54 | Nodes: exactly the members, each once, in the affiliation graph's node order. Links: no self-loop and at most one per unordered pair, each joining two members that share a community. It also returns the trial log, the directed pairs drawn for, one draw each in order. Members take their turns in node order (index.js:52), so trial sources never go back to an earlier member. No directed pair appears twice. A pair is linked exactly when its draw is at most `1 - pow(e, -affinity)`. Every link is a trial. Every member has a link or a trial toward each co-member. If every weight is a supplied zero, `pow(e, 0)` is 1 and no draw is exactly zero, there are no links. |
| Agm.GenerateOnce | index.js:98-101 | The corrected generator. Its guarantees match `Generate`'s, turn order included. The difference: no unordered pair is tried twice, and each pair of co-members is linked or tried in one direction. |
| Scenario.TestGraphMembers | test/index.js:6-16 | In the test graph the classification rule picks out exactly users 0-3. |
| Scenario.DefaultWeightScenario | test/index.js:5-22 | With default weights the social graph has exactly the four users, no self-loop and no duplicate pair. |
| Scenario.ZeroWeightScenario | test/index.js:24-41 | With every weight zero the social graph has exactly four nodes and no links, whenever no draw is exactly zero. |
| Scenario.NegativeWeightLowersAffinity | index.js:103-110 | With links a -> c of weight `wa` and b -> c of weight -1, the affinity of a toward b is -1 at `wa` = 1 and -2 at `wa` = 2. A supplied negative weight, which index.js:144 accepts, makes raising a weight lower an affinity. |
| Scenario.PairDrawnTwice | index.js:98-101 | On the second test's graph, with no draw succeeding, the generator as written draws for the pair of users 0 and 1 twice, once from each end. |
| Scenario.PairDrawnOnce | index.js:98-101 | On the same graph the corrected generator draws for that pair in exactly one direction. |

## Findings

| source | as written | input that shows it | evidently intended | confidence | as-written member | corrected member |
|---|---|---|---|---|---|---|
| index.js:98-101 | `sumUpWeights` skips a co-member only when a link already joins the pair. When `source`'s draw for `v` fails, `v`'s later turn draws for the same pair again. So the pair is linked with chance `1 - (1 - p)^2`, not `p`. | The second test's graph (users 0-3 in two groups), with weights 0, `pow(e, 0) = 1` and every draw above 0. Users 0 and 1 are tried both as `user 0 -> user 1` and as `user 1 -> user 0`. | One draw per unordered pair, with `p(u, v) = 1 - pow(e, -weight)` as the comment at index.js:31-33 states. | medium, not executed | Scenario.PairDrawnTwice (via Agm.Generate) | Agm.GenerateOnce (shown on the same input by Scenario.PairDrawnOnce) |

## Left out

- `Math.pow` and `Math.E` are floating-point and transcendental. They are the `Numerics` parameter, and the model states no property of them beyond what a lemma's `requires` names.
- The seeded generator of `ngraph.random` is replaced by the `Random` stream. The seed choice (`options.random` if it is a number, otherwise 42, index.js:38) has no effect on that stream and is not modelled.
- Scenario.DefaultWeightScenario: does not state the test's "at least one link", because that depends on the concrete draws of the seeded generator.
- Ids are modelled as strings, and every enumeration keeps insertion order: the social graph's nodes, and the neighbour map's keys in the order they are first reached. JavaScript objects list integer-like keys first, in ascending numeric order, whether the ids are numbers or strings such as `"7"`. So for integer-like ids the member turn order of index.js:52 and the key order of `Object.keys` at index.js:114 differ from the model, and a different draw can decide a pair. The invariants do not depend on either order.
- Numeric ids are not modelled. With numeric ids the link is added to the stringified key (index.js:117-121), while `hasLink` (index.js:98-99) is asked about the original id. If the library compares ids strictly, the check for an existing link can miss a link added this way, and a pair could get a second link. The one-link-per-pair results of `SocialGraph.AppendFromSource` and `Agm.Generate` therefore hold for string ids only.
- Affinity.Accumulate: states the set of keys and their weights, but not that keys are listed in the order they are first reached. The invariants do not depend on that order.
- Agm.Generate: fixes the member turn order and one draw per trial, but not which keys a turn draws for in which order. The trials of one turn are not pinned to that turn's neighbour map in the contract, so the contract alone does not name the draw that decides each pair. `Affinity.Accumulate` and `Sampling.AddEdgesMaybe` state the per-turn facts.
- Weights, their products and sums are exact reals. JavaScript computes them in double precision (index.js:105-110, 119, 152), with rounding, and a caller may supply NaN or Infinity as a weight. Neither rounding nor those values occur in the model.
- NaN is not modelled. In JavaScript, `undefined * x` gives NaN, and NaN is falsy. Accumulation only runs after initialisation, when every link carries a number, so `WeightOf` reading a non-number as 0 is never reached.
- The graph library's storage internals are not modelled: the linear-scan `hasLink`, multigraph link ids, and `getLinks` returning `null` rather than an empty list. An absent node has no links in the model, so it is classified the same way.
- Initialisation returns a new graph rather than overwriting the caller's link objects.
- The generator does not validate its input. A graph whose links do not all run member -> community gives undefined results. The model therefore takes `MemberToCommunity` as a precondition. It does not add an input-validation error, since the code has none.
- The code has no guard for a community with zero links, and none is needed: `CommunityDegreePositive` shows the member count is at least 1.
- Monotonicity is proved only over exact reals with every membership weight non-negative (`Affinity.AffinityMonotone`), and for the probability only when `pow(e, x)` is increasing in `x` (`TrialLog.PairProbabilityMonotone`). The code does not check the sign of supplied weights (index.js:144). With a negative co-member weight, raising a weight lowers the affinity (`Scenario.NegativeWeightLowersAffinity`).
- Determinism is not stated as a contract. Every step `Generate` calls is a function or a loop with no nondeterministic choice, so its result depends only on its inputs.
- The probability of a link is not computed. The model states which draw decides each pair, not the resulting distribution, which would need a probabilistic semantics of the stream.

=== FILE: affiliation.dfy ===
/**
  The affiliation graph: a directed graph whose links run from member nodes to
  community nodes. Nodes and links are kept in insertion order. The node
  order matches the library's node enumeration only for ids that are not
  integer-like: a JavaScript object lists integer-like keys first, in
  ascending numeric order, whether they were given as numbers or strings.
 */
module AffiliationGraph {

  /** Node ids are opaque; strings are enough for every property stated here. */
  type NodeId = string

  /** A JavaScript value as far as this model cares: a number, or anything else. */
  datatype Value = Number(n: real) | NonNumber

  datatype Link = Link(fromId: NodeId, toId: NodeId, data: Value)

  datatype Graph = Graph(nodes: seq<NodeId>, links: seq<Link>)

  predicate Distinct<T(==)>(s: seq<T>) {
    forall i, j :: 0 <= i < j < |s| ==> s[i] != s[j]
  }

  /** What the graph library guarantees: node ids are unique, and adding a
      link adds both of its endpoints as nodes. */
  predicate WellFormed(g: Graph) {
    && Distinct(g.nodes)
    && forall l :: l in g.links ==> l.fromId in g.nodes && l.toId in g.nodes
  }

  /** The input contract of the generator: no node is both the source of one
      link and the target of another, so every link runs member -> community. */
  predicate MemberToCommunity(g: Graph) {
    forall i, j :: 0 <= i < |g.links| && 0 <= j < |g.links| ==> g.links[i].fromId != g.links[j].toId
  }

  predicate IsIncident(l: Link, id: NodeId) {
    l.fromId == id || l.toId == id
  }

  /** The links incident on `id`, in insertion order (the library's `getLinks`). */
  function Incident(ls: seq<Link>, id: NodeId): (r: seq<Link>)
    ensures |r| <= |ls|
    ensures forall l :: l in r <==> l in ls && IsIncident(l, id)
  {
    if |ls| == 0 then []
    else (if IsIncident(ls[0], id) then [ls[0]] else []) + Incident(ls[1..], id)
  }

  function LinksOf(g: Graph, id: NodeId): seq<Link> {
    Incident(g.links, id)
  }

  /** Number of links incident on `id`: the length of `getLinks(id)`. */
  function Degree(g: Graph, id: NodeId): nat {
    |LinksOf(g, id)|
  }

  /** The links leaving `id`, in insertion order: what an oriented
      `forEachLinkedNode(id, ..., true)` visits. */
  function Outgoing(ls: seq<Link>, id: NodeId): (r: seq<Link>)
    ensures |r| <= |ls|
    ensures forall l :: l in r <==> l in ls && l.fromId == id
  {
    if |ls| == 0 then []
    else (if ls[0].fromId == id then [ls[0]] else []) + Outgoing(ls[1..], id)
  }

  function OutLinks(g: Graph, id: NodeId): seq<Link> {
    Outgoing(g.links, id)
  }

  /** The node at the far end of `l` seen from `id`, as a non-oriented
      `forEachLinkedNode(id, ...)` reports it. */
  function Other(l: Link, id: NodeId): NodeId {
    if l.fromId == id then l.toId else l.fromId
  }

  predicate HasOutgoing(g: Graph, id: NodeId) {
    exists i :: 0 <= i < |g.links| && g.links[i].fromId == id
  }

  /** Two graphs with the same nodes and, link by link, the same endpoints;
      they differ at most in the data the links carry. */
  predicate SameShape(g: Graph, h: Graph) {
    && g.nodes == h.nodes
    && |g.links| == |h.links|
    && forall i :: 0 <= i < |g.links| ==>
         g.links[i].fromId == h.links[i].fromId && g.links[i].toId == h.links[i].toId
  }

  /** Members `a` and `b` both have a link into one community. */
  predicate SharesCommunity(g: Graph, a: NodeId, b: NodeId) {
    exists i, j :: 0 <= i < |g.links| && 0 <= j < |g.links| &&
      g.links[i].fromId == a && g.links[j].fromId == b && g.links[i].toId == g.links[j].toId
  }

  /** The classification rule of the generator: a node without links, or whose
      first link points at it, is a community; any other node is a member. */
  predicate IsCommunityNode(g: Graph, id: NodeId) {
    var ls := LinksOf(g, id);
    |ls| == 0 || ls[0].toId == id
  }

  /** When every link runs member -> community, the first-link rule agrees
      with "has no outgoing link": isolated nodes count as communities. */
  lemma ClassifyByDirection(g: Graph, id: NodeId)
    requires MemberToCommunity(g)
    ensures IsCommunityNode(g, id) <==> !HasOutgoing(g, id)
  {
    var ls := LinksOf(g, id);
    if HasOutgoing(g, id) {
      var i :| 0 <= i < |g.links| && g.links[i].fromId == id;
      assert g.links[i] in ls;
      assert ls[0] in ls;
      var j :| 0 <= j < |g.links| && g.links[j] == ls[0];
      assert g.links[i].fromId != g.links[j].toId;
    } else if |ls| > 0 {
      assert ls[0] in ls;
      var j :| 0 <= j < |g.links| && g.links[j] == ls[0];
      assert g.links[j].fromId != id;
    }
  }

  /** The incident links of two same-shaped link sequences pair up one to one. */
  lemma {:induction false} IncidentSameShape(ls: seq<Link>, ms: seq<Link>, id: NodeId)
    requires |ls| == |ms|
    requires forall i :: 0 <= i < |ls| ==> ls[i].fromId == ms[i].fromId && ls[i].toId == ms[i].toId
    ensures |Incident(ls, id)| == |Incident(ms, id)|
    ensures forall k :: 0 <= k < |Incident(ls, id)| ==>
      Incident(ls, id)[k].fromId == Incident(ms, id)[k].fromId && Incident(ls, id)[k].toId == Incident(ms, id)[k].toId
  {
    if |ls| > 0 {
      IncidentSameShape(ls[1..], ms[1..], id);
    }
  }

  /** Changing link data changes no node's degree. */
  lemma DegreeSameShape(g: Graph, h: Graph, id: NodeId)
    requires SameShape(g, h)
    ensures Degree(g, id) == Degree(h, id)
  {
    IncidentSameShape(g.links, h.links, id);
  }

  /** Changing link data changes no node's classification. */
  lemma ClassificationSameShape(g: Graph, h: Graph, id: NodeId)
    requires SameShape(g, h)
    ensures IsCommunityNode(g, id) <==> IsCommunityNode(h, id)
  {
    IncidentSameShape(g.links, h.links, id);
  }

  /** The community a link points at has at least that link, so its degree is
      at least one and the default-weight formula never sees a count of zero. */
  lemma CommunityDegreePositive(g: Graph, i: nat)
    requires i < |g.links|
    ensures Degree(g, g.links[i].toId) >= 1
  {
    assert g.links[i] in LinksOf(g, g.links[i].toId);
  }

  /** Nodes that share a community are members, present in the graph. */
  lemma SharedAreMembers(g: Graph, a: NodeId, b: NodeId)
    requires WellFormed(g) && MemberToCommunity(g)
    requires SharesCommunity(g, a, b)
    ensures a in g.nodes && !IsCommunityNode(g, a)
    ensures b in g.nodes && !IsCommunityNode(g, b)
  {
    var i, j :| 0 <= i < |g.links| && 0 <= j < |g.links| &&
      g.links[i].fromId == a && g.links[j].fromId == b && g.links[i].toId == g.links[j].toId;
    assert g.links[i] in g.links && g.links[j] in g.links;
    ClassifyByDirection(g, a);
    ClassifyByDirection(g, b);
  }

  lemma SameShapeContracts(g: Graph, h: Graph)
    requires SameShape(g, h)
    ensures WellFormed(g) ==> WellFormed(h)
    ensures MemberToCommunity(g) ==> MemberToCommunity(h)
    ensures forall a, b :: SharesCommunity(h, a, b) <==> SharesCommunity(g, a, b)
  {
    if WellFormed(g) {
      forall l | l in h.links
        ensures l.fromId in h.nodes && l.toId in h.nodes
      {
        var i :| 0 <= i < |h.links| && h.links[i] == l;
        assert g.links[i] in g.links;
      }
    }
    forall a, b | SharesCommunity(g, a, b)
      ensures SharesCommunity(h, a, b)
    {
      var i, j :| 0 <= i < |g.links| && 0 <= j < |g.links| &&
        g.links[i].fromId == a && g.links[j].fromId == b && g.links[i].toId == g.links[j].toId;
      assert h.links[i].fromId == a && h.links[j].fromId == b && h.links[i].toId == h.links[j].toId;
    }
  }

  lemma SharesSymmetric(g: Graph, a: NodeId, b: NodeId)
    requires SharesCommunity(g, a, b)
    ensures SharesCommunity(g, b, a)
  {
    var i, j :| 0 <= i < |g.links| && 0 <= j < |g.links| &&
      g.links[i].fromId == a && g.links[j].fromId == b && g.links[i].toId == g.links[j].toId;
    assert g.links[j].fromId == b && g.links[i].fromId == a && g.links[j].toId == g.links[i].toId;
  }
}

=== FILE: affinity.dfy ===
/**
  Affinity accumulation: for one source member, the weight of every co-member
  it could still be linked with, summed over the communities they share of
  the product of their two membership weights.
 */
module Affinity {
  import opened AffiliationGraph
  import opened Weights
  import opened SocialGraph

  /** The plain JavaScript object the generator accumulates into: its keys in
      the order they are first reached and the value stored under each key.
      `Object.keys` reports that order only for keys that are not
      integer-like; integer-like keys come first, in ascending numeric order. */
  datatype Neighbors = Neighbors(keys: seq<NodeId>, weight: map<NodeId, real>)

  ghost predicate Valid(n: Neighbors) {
    && Distinct(n.keys)
    && forall id :: id in n.weight <==> id in n.keys
  }

  const Empty: Neighbors := Neighbors([], map[])

  /** The stored weight, zero for a missing key. */
  function Get(n: Neighbors, id: NodeId): real {
    if id in n.weight then n.weight[id] else 0.0
  }

  /** One accumulation step: a stored weight that is truthy (not zero) gets
      `w` added; a missing or zero entry is overwritten with `w`, which keeps
      a zero entry's position among the keys. Either way the entry grows by
      exactly `w`. */
  function Bump(n: Neighbors, id: NodeId, w: real): (r: Neighbors)
    requires Valid(n)
    ensures Valid(r)
    ensures Get(r, id) == Get(n, id) + w
    ensures forall x :: x != id ==> Get(r, x) == Get(n, x)
    ensures forall x :: x in r.weight <==> x in n.weight || x == id
  {
    if id in n.weight && n.weight[id] != 0.0 then
      Neighbors(n.keys, n.weight[id := n.weight[id] + w])
    else if id in n.weight then
      Neighbors(n.keys, n.weight[id := w])
    else
      Neighbors(n.keys + [id], n.weight[id := w])
  }

  /** `other` may still get a link from `source`: it is a different node and
      no link joins the two yet. */
  predicate Candidate(s: Social, source: NodeId, other: NodeId) {
    other != source && !Linked(s, source, other)
  }

  /** Some link of community `c` among `ls` leads to `o`. */
  predicate Reaches(ls: seq<Link>, c: NodeId, o: NodeId) {
    exists j :: 0 <= j < |ls| && Other(ls[j], c) == o
  }

  /** Reference sum: over the links `ls` of community `c` that lead to `o`,
      the link's weight times the source's weight `sw` in `c`. */
  function CommunityShare(ls: seq<Link>, c: NodeId, o: NodeId, sw: real): real {
    if |ls| == 0 then 0.0
    else (if Other(ls[0], c) == o then WeightOf(ls[0]) * sw else 0.0) + CommunityShare(ls[1..], c, o, sw)
  }

  /** Visits the links of community `c` (whose links are `ls`), skipping the
      source itself and nodes already linked to it, and accumulates the
      product of weights for every other co-member. */
  function SumUpWeights(n: Neighbors, s: Social, source: NodeId, c: NodeId, sw: real, ls: seq<Link>): (r: Neighbors)
    requires Valid(n)
    ensures Valid(r)
    ensures forall o :: Get(r, o) == Get(n, o) + (if Candidate(s, source, o) then CommunityShare(ls, c, o, sw) else 0.0)
    ensures forall o :: o in r.weight <==> o in n.weight || (Candidate(s, source, o) && Reaches(ls, c, o))
    decreases |ls|
  {
    if |ls| == 0 then n
    else
      var other := Other(ls[0], c);
      var n' := if other == source || Linked(s, source, other) then n else Bump(n, other, WeightOf(ls[0]) * sw);
      var r := SumUpWeights(n', s, source, c, sw, ls[1..]);
      assert forall o :: Reaches(ls, c, o) <==> other == o || Reaches(ls[1..], c, o) by {
        forall o | Reaches(ls[1..], c, o)
          ensures Reaches(ls, c, o)
        {
          var j :| 0 <= j < |ls[1..]| && Other(ls[1..][j], c) == o;
          assert Other(ls[j + 1], c) == o;
        }
      }
      r
  }

  /** Some community that one of the links `outs` points at leads to `o`. */
  predicate ReachesAny(g: Graph, outs: seq<Link>, o: NodeId) {
    exists i :: 0 <= i < |outs| && Reaches(LinksOf(g, outs[i].toId), outs[i].toId, o)
  }

  /** Reference affinity: the sum over the communities the links `outs` point
      at of the products of the two members' weights in that community. */
  function ReferenceAffinity(g: Graph, outs: seq<Link>, o: NodeId): real {
    if |outs| == 0 then 0.0
    else CommunityShare(LinksOf(g, outs[0].toId), outs[0].toId, o, WeightOf(outs[0])) + ReferenceAffinity(g, outs[1..], o)
  }

  /** Visits the communities the links `outs` point at, remembering the
      source's weight in each one while its members are summed up. */
  function ProcessCommunities(n: Neighbors, g: Graph, s: Social, source: NodeId, outs: seq<Link>): (r: Neighbors)
    requires Valid(n)
    ensures Valid(r)
    ensures forall o :: Get(r, o) == Get(n, o) + (if Candidate(s, source, o) then ReferenceAffinity(g, outs, o) else 0.0)
    ensures forall o :: o in r.weight <==> o in n.weight || (Candidate(s, source, o) && ReachesAny(g, outs, o))
    decreases |outs|
  {
    if |outs| == 0 then n
    else
      var c := outs[0].toId;
      var n' := SumUpWeights(n, s, source, c, WeightOf(outs[0]), LinksOf(g, c));
      var r := ProcessCommunities(n', g, s, source, outs[1..]);
      assert forall o :: ReachesAny(g, outs, o) <==> Reaches(LinksOf(g, c), c, o) || ReachesAny(g, outs[1..], o) by {
        forall o | ReachesAny(g, outs[1..], o)
          ensures ReachesAny(g, outs, o)
        {
          var i :| 0 <= i < |outs[1..]| && Reaches(LinksOf(g, outs[1..][i].toId), outs[1..][i].toId, o);
          assert outs[1..][i] == outs[i + 1];
        }
        forall o | Reaches(LinksOf(g, c), c, o)
          ensures ReachesAny(g, outs, o)
        {
          assert Reaches(LinksOf(g, outs[0].toId), outs[0].toId, o);
        }
      }
      r
  }

  /** The neighbour map built for `source` against the social graph `s` as it
      stands: the keys are exactly the nodes other than `source`, not yet
      linked to it, that a community of `source` leads to, and each one maps
      to its reference affinity. */
  function Accumulate(g: Graph, s: Social, source: NodeId): (r: Neighbors)
    ensures Valid(r)
    ensures forall o :: o in r.weight <==> Candidate(s, source, o) && ReachesAny(g, OutLinks(g, source), o)
    ensures forall o :: o in r.weight ==> r.weight[o] == ReferenceAffinity(g, OutLinks(g, source), o)
  {
    ProcessCommunities(Empty, g, s, source, OutLinks(g, source))
  }

  /** The ids of `keys` that are not listed in `done`, in their order. */
  function Unlisted(keys: seq<NodeId>, done: seq<NodeId>): (r: seq<NodeId>)
    ensures forall x :: x in r <==> x in keys && x !in done
    ensures Distinct(keys) ==> Distinct(r)
    decreases |keys|
  {
    if |keys| == 0 then []
    else
      var rest := Unlisted(keys[1..], done);
      assert Distinct(keys) ==> keys[0] !in keys[1..];
      (if keys[0] in done then [] else [keys[0]]) + rest
  }

  /** The neighbour map with every id listed in `done` dropped, the other
      entries and their order kept. */
  function Without(n: Neighbors, done: seq<NodeId>): (r: Neighbors)
    requires Valid(n)
    ensures Valid(r)
    ensures forall x :: x in r.weight <==> x in n.weight && x !in done
    ensures forall x :: x in r.weight ==> r.weight[x] == n.weight[x]
  {
    Neighbors(Unlisted(n.keys, done), map x | x in n.weight && x !in done :: n.weight[x])
  }

  lemma ReachesImpliesShared(g: Graph, a: NodeId, b: NodeId)
    requires MemberToCommunity(g)
    requires ReachesAny(g, OutLinks(g, a), b)
    ensures SharesCommunity(g, a, b)
  {
    var outs := OutLinks(g, a);
    var i :| 0 <= i < |outs| && Reaches(LinksOf(g, outs[i].toId), outs[i].toId, b);
    var c := outs[i].toId;
    var ls := LinksOf(g, c);
    var j :| 0 <= j < |ls| && Other(ls[j], c) == b;
    assert outs[i] in outs && ls[j] in ls;
    var i' :| 0 <= i' < |g.links| && g.links[i'] == outs[i];
    var j' :| 0 <= j' < |g.links| && g.links[j'] == ls[j];
    assert g.links[j'].fromId != g.links[i'].toId;
    assert g.links[i'].fromId == a && g.links[j'].fromId == b && g.links[i'].toId == g.links[j'].toId;
  }

  lemma SharedImpliesReaches(g: Graph, a: NodeId, b: NodeId)
    requires MemberToCommunity(g)
    requires SharesCommunity(g, a, b)
    ensures ReachesAny(g, OutLinks(g, a), b)
  {
    var outs := OutLinks(g, a);
    var i, j :| 0 <= i < |g.links| && 0 <= j < |g.links| &&
      g.links[i].fromId == a && g.links[j].fromId == b && g.links[i].toId == g.links[j].toId;
    var c := g.links[i].toId;
    var ls := LinksOf(g, c);
    assert g.links[i] in outs && g.links[j] in ls;
    var i' :| 0 <= i' < |outs| && outs[i'] == g.links[i];
    var j' :| 0 <= j' < |ls| && ls[j'] == g.links[j];
    assert g.links[j].fromId != g.links[i].toId;
    assert Other(ls[j'], c) == b;
    assert Reaches(LinksOf(g, outs[i'].toId), outs[i'].toId, b);
  }

  /** Under the member -> community contract, the nodes the traversal reaches
      from `a` are exactly the nodes sharing a community with `a`. */
  lemma ReachesIffSharesCommunity(g: Graph, a: NodeId, b: NodeId)
    requires MemberToCommunity(g)
    ensures ReachesAny(g, OutLinks(g, a), b) <==> SharesCommunity(g, a, b)
  {
    if ReachesAny(g, OutLinks(g, a), b) {
      ReachesImpliesShared(g, a, b);
    }
    if SharesCommunity(g, a, b) {
      SharedImpliesReaches(g, a, b);
    }
  }

  lemma {:induction false} CommunityShareZero(ls: seq<Link>, c: NodeId, o: NodeId, sw: real)
    requires forall j :: 0 <= j < |ls| ==> WeightOf(ls[j]) == 0.0
    ensures CommunityShare(ls, c, o, sw) == 0.0
    decreases |ls|
  {
    if |ls| > 0 {
      CommunityShareZero(ls[1..], c, o, sw);
    }
  }

  /** With every membership weight zero, every affinity is zero. */
  lemma {:induction false} AffinityZero(g: Graph, outs: seq<Link>, o: NodeId)
    requires forall i :: 0 <= i < |g.links| ==> WeightOf(g.links[i]) == 0.0
    ensures ReferenceAffinity(g, outs, o) == 0.0
    decreases |outs|
  {
    if |outs| > 0 {
      var c := outs[0].toId;
      var ls := LinksOf(g, c);
      forall j | 0 <= j < |ls|
        ensures WeightOf(ls[j]) == 0.0
      {
        assert ls[j] in ls;
      }
      CommunityShareZero(ls, c, o, WeightOf(outs[0]));
      AffinityZero(g, outs[1..], o);
    }
  }

  lemma {:induction false} CommunityShareNonNegative(ls: seq<Link>, c: NodeId, o: NodeId, sw: real)
    requires sw >= 0.0
    requires forall j :: 0 <= j < |ls| ==> WeightOf(ls[j]) >= 0.0
    ensures CommunityShare(ls, c, o, sw) >= 0.0
    decreases |ls|
  {
    if |ls| > 0 {
      ProductNonNegative(WeightOf(ls[0]), sw);
      CommunityShareNonNegative(ls[1..], c, o, sw);
    }
  }

  /** With non-negative membership weights, every affinity is non-negative. */
  lemma {:induction false} AffinityNonNegative(g: Graph, outs: seq<Link>, o: NodeId)
    requires forall i :: 0 <= i < |g.links| ==> WeightOf(g.links[i]) >= 0.0
    requires forall i :: 0 <= i < |outs| ==> outs[i] in g.links
    ensures ReferenceAffinity(g, outs, o) >= 0.0
    decreases |outs|
  {
    if |outs| > 0 {
      var c := outs[0].toId;
      var ls := LinksOf(g, c);
      forall j | 0 <= j < |ls|
        ensures WeightOf(ls[j]) >= 0.0
      {
        assert ls[j] in ls;
      }
      assert outs[0] in g.links;
      CommunityShareNonNegative(ls, c, o, WeightOf(outs[0]));
      AffinityNonNegative(g, outs[1..], o);
    }
  }

  /** `ys` is `xs` with some weights raised: link by link the same endpoints,
      and a weight at least as large, all of them non-negative. */
  predicate Raised(xs: seq<Link>, ys: seq<Link>) {
    && |xs| == |ys|
    && forall i :: 0 <= i < |xs| ==>
         && xs[i].fromId == ys[i].fromId && xs[i].toId == ys[i].toId
         && 0.0 <= WeightOf(xs[i]) <= WeightOf(ys[i])
  }

  lemma ProductMonotone(a: real, b: real, a': real, b': real)
    requires 0.0 <= a <= a' && 0.0 <= b <= b'
    ensures a * b <= a' * b'
  {
    assert a * b <= a' * b;
    assert a' * b <= a' * b';
  }

  /** Filtering by endpoint keeps the raise link by link. */
  lemma RaisedConcat(xs: seq<Link>, ys: seq<Link>, xs': seq<Link>, ys': seq<Link>)
    requires Raised(xs, ys) && Raised(xs', ys')
    ensures Raised(xs + xs', ys + ys')
  {
    forall i | 0 <= i < |xs + xs'|
      ensures (xs + xs')[i].fromId == (ys + ys')[i].fromId && (xs + xs')[i].toId == (ys + ys')[i].toId
      ensures 0.0 <= WeightOf((xs + xs')[i]) <= WeightOf((ys + ys')[i])
    {
      if i >= |xs| {
        assert (xs + xs')[i] == xs'[i - |xs|] && (ys + ys')[i] == ys'[i - |xs|];
      }
    }
  }

  lemma RaisedTail(xs: seq<Link>, ys: seq<Link>)
    requires Raised(xs, ys) && |xs| > 0
    ensures Raised(xs[1..], ys[1..])
  {
    forall i | 0 <= i < |xs| - 1
      ensures xs[1..][i] == xs[i + 1] && ys[1..][i] == ys[i + 1]
    {
    }
  }

  lemma {:induction false} IncidentRaised(xs: seq<Link>, ys: seq<Link>, id: NodeId)
    requires Raised(xs, ys)
    ensures Raised(Incident(xs, id), Incident(ys, id))
  {
    if |xs| > 0 {
      IncidentRaised(xs[1..], ys[1..], id);
      var hx := if IsIncident(xs[0], id) then [xs[0]] else [];
      var hy := if IsIncident(ys[0], id) then [ys[0]] else [];
      RaisedConcat(hx, hy, Incident(xs[1..], id), Incident(ys[1..], id));
    }
  }

  lemma {:induction false} OutgoingRaised(xs: seq<Link>, ys: seq<Link>, id: NodeId)
    requires Raised(xs, ys)
    ensures Raised(Outgoing(xs, id), Outgoing(ys, id))
  {
    if |xs| > 0 {
      OutgoingRaised(xs[1..], ys[1..], id);
      var hx := if xs[0].fromId == id then [xs[0]] else [];
      var hy := if ys[0].fromId == id then [ys[0]] else [];
      RaisedConcat(hx, hy, Outgoing(xs[1..], id), Outgoing(ys[1..], id));
    }
  }

  lemma {:induction false} CommunityShareMonotone(ls: seq<Link>, ls': seq<Link>, c: NodeId, o: NodeId, sw: real, sw': real)
    requires Raised(ls, ls') && 0.0 <= sw <= sw'
    ensures CommunityShare(ls, c, o, sw) <= CommunityShare(ls', c, o, sw')
  {
    if |ls| > 0 {
      assert ls[0].fromId == ls'[0].fromId && ls[0].toId == ls'[0].toId;
      assert Other(ls[0], c) == Other(ls'[0], c);
      var w, w' := WeightOf(ls[0]), WeightOf(ls'[0]);
      ProductMonotone(w, sw, w', sw');
      RaisedTail(ls, ls');
      CommunityShareMonotone(ls[1..], ls'[1..], c, o, sw, sw');
    }
  }

  lemma {:induction false} ReferenceAffinityMonotone(g: Graph, h: Graph, outs: seq<Link>, outs': seq<Link>, o: NodeId)
    requires Raised(g.links, h.links) && Raised(outs, outs')
    ensures ReferenceAffinity(g, outs, o) <= ReferenceAffinity(h, outs', o)
  {
    if |outs| > 0 {
      var c := outs[0].toId;
      IncidentRaised(g.links, h.links, c);
      CommunityShareMonotone(LinksOf(g, c), LinksOf(h, c), c, o, WeightOf(outs[0]), WeightOf(outs'[0]));
      ReferenceAffinityMonotone(g, h, outs[1..], outs'[1..], o);
    }
  }

  /** Raising membership weights, all of them non-negative, never lowers an
      affinity. With a negative weight this fails: raising a member's weight
      in a community where the co-member's weight is negative lowers their
      product. */
  lemma AffinityMonotone(g: Graph, h: Graph, a: NodeId, b: NodeId)
    requires Raised(g.links, h.links)
    ensures ReferenceAffinity(g, OutLinks(g, a), b) <= ReferenceAffinity(h, OutLinks(h, a), b)
  {
    OutgoingRaised(g.links, h.links, a);
    ReferenceAffinityMonotone(g, h, OutLinks(g, a), OutLinks(h, a), b);
  }

  /** Raising one link's weight, when every weight is non-negative, is a
      raise in the sense above. */
  lemma OneLinkRaised(g: Graph, k: nat, w: real)
    requires k < |g.links|
    requires forall i :: 0 <= i < |g.links| ==> WeightOf(g.links[i]) >= 0.0
    requires WeightOf(g.links[k]) <= w
    ensures Raised(g.links, g.links[k := g.links[k].(data := Number(w))])
  {
  }
}

=== FILE: agm.dfy ===
/**
  The Affiliation Graph Model generator: initialise membership weights, copy
  every member into a fresh social graph, then for each member accumulate
  its affinity to every co-member and draw once per candidate to decide
  whether to link them.
 */
module Agm {
  import opened AffiliationGraph
  import opened Weights
  import opened SocialGraph
  import opened Affinity
  import opened Sampling
  import opened TrialLog

  /** The ids among `ids` that the classification rule calls members, in the
      order of `ids`. */
  function MembersIn(g: Graph, ids: seq<NodeId>): (r: seq<NodeId>)
    ensures forall id :: id in r <==> id in ids && !IsCommunityNode(g, id)
  {
    if |ids| == 0 then []
    else (if IsCommunityNode(g, ids[0]) then [] else [ids[0]]) + MembersIn(g, ids[1..])
  }

  /** Filtering one more id appends it when it is a member. */
  lemma {:induction false} MembersInSnoc(g: Graph, ids: seq<NodeId>, id: NodeId)
    ensures MembersIn(g, ids + [id]) == MembersIn(g, ids) + (if IsCommunityNode(g, id) then [] else [id])
  {
    if |ids| > 0 {
      assert (ids + [id])[1..] == ids[1..] + [id];
      MembersInSnoc(g, ids[1..], id);
    }
  }

  /** Two graphs that classify every node alike pick the same members, in
      the same order. */
  lemma {:induction false} MembersInAlike(g: Graph, h: Graph, ids: seq<NodeId>)
    requires forall id :: IsCommunityNode(g, id) <==> IsCommunityNode(h, id)
    ensures MembersIn(g, ids) == MembersIn(h, ids)
  {
    if |ids| > 0 {
      MembersInAlike(g, h, ids[1..]);
    }
  }

  /** Copies every node the classification rule calls a member into an empty
      social graph, once each, in the order the affiliation graph lists its
      nodes. */
  method AddMemberNodes(g: Graph) returns (s: Social)
    ensures s.edges == []
    ensures Distinct(s.nodes)
    ensures forall id :: id in s.nodes <==> id in g.nodes && !IsCommunityNode(g, id)
    ensures Distinct(g.nodes) ==> s.nodes == MembersIn(g, g.nodes)
  {
    s := Social([], []);
    for i := 0 to |g.nodes|
      invariant s.edges == []
      invariant Distinct(s.nodes)
      invariant forall id :: id in s.nodes <==> id in g.nodes[..i] && !IsCommunityNode(g, id)
      invariant Distinct(g.nodes) ==> s.nodes == MembersIn(g, g.nodes[..i])
    {
      var id := g.nodes[i];
      assert g.nodes[..i + 1] == g.nodes[..i] + [id];
      MembersInSnoc(g, g.nodes[..i], id);
      if !IsCommunityNode(g, id) {
        assert Distinct(g.nodes) ==> id !in g.nodes[..i];
        s := AddNode(s, id);
      }
    }
    assert g.nodes[..|g.nodes|] == g.nodes;
  }

  /** Weight initialisation and member projection, shared by both generators. */
  method Prepare(g: Graph, o: Options, num: Numerics) returns (wg: Graph, social: Social)
    requires WellFormed(g) && MemberToCommunity(g)
    ensures wg == InitWeights(g, num, o)
    ensures WellFormed(wg) && MemberToCommunity(wg)
    ensures forall a, b :: SharesCommunity(wg, a, b) <==> SharesCommunity(g, a, b)
    ensures AllZero(g) ==> forall i :: 0 <= i < |wg.links| ==> WeightOf(wg.links[i]) == 0.0
    ensures social.edges == [] && Distinct(social.nodes)
    ensures forall id :: id in social.nodes <==> id in g.nodes && !IsCommunityNode(g, id)
    ensures forall id :: id in social.nodes <==> id in wg.nodes && !IsCommunityNode(wg, id)
    ensures social.nodes == MembersIn(g, g.nodes)
  {
    wg := EnsureWeightsInitialized(g, num, o);
    SameShapeContracts(g, wg);
    if AllZero(g) {
      forall i | 0 <= i < |wg.links|
        ensures WeightOf(wg.links[i]) == 0.0
      {
        assert g.links[i].data.Number?;
      }
    }
    social := AddMemberNodes(wg);
    forall id
      ensures IsCommunityNode(wg, id) <==> IsCommunityNode(g, id)
    {
      ClassificationSameShape(g, wg, id);
    }
    MembersInAlike(wg, g, g.nodes);
  }

  /** The member loop of the generator: each member in turn accumulates its
      neighbour map against the links made so far and samples it. */
  method SampleMembers(wg: Graph, start: Social, rnd: Random, num: Numerics)
    returns (social: Social, rnd': Random, trials: seq<Edge>)
    requires WellFormed(wg) && MemberToCommunity(wg)
    requires start.edges == [] && Distinct(start.nodes)
    requires forall id :: id in start.nodes <==> id in wg.nodes && !IsCommunityNode(wg, id)
    ensures social.nodes == start.nodes
    ensures Progress(social, trials, rnd, rnd', social.nodes, wg, num)
    ensures InTurnOrder(trials, social.nodes)
    ensures Covered(social, trials, social.nodes, wg)
  {
    social := start;
    var members := social.nodes;
    rnd', trials := rnd, [];
    for i := 0 to |members|
      invariant social.nodes == members
      invariant Progress(social, trials, rnd, rnd', members[..i], wg, num)
      invariant InTurnOrder(trials, members)
      invariant Covered(social, trials, members[..i], wg)
    {
      var source := members[i];
      var n := Accumulate(wg, social, source);
      NeighbourhoodOf(wg, social, source);
      var before, drawn, logged := social, rnd', trials;
      social, rnd' := AddEdgesMaybe(social, source, n, rnd', num);
      TurnAsWritten(wg, num, rnd, members, i, before, social, logged, drawn, rnd');
      OrderTurn(logged, members, i, n.keys);
      trials := trials + Trials(source, n.keys);
    }
    assert members[..|members|] == members;
  }

  /** The member loop of the corrected generator: a member's turn also skips
      every member whose turn came earlier. */
  method SampleMembersOnce(wg: Graph, start: Social, rnd: Random, num: Numerics)
    returns (social: Social, rnd': Random, trials: seq<Edge>)
    requires WellFormed(wg) && MemberToCommunity(wg)
    requires start.edges == [] && Distinct(start.nodes)
    requires forall id :: id in start.nodes <==> id in wg.nodes && !IsCommunityNode(wg, id)
    ensures social.nodes == start.nodes
    ensures Progress(social, trials, rnd, rnd', social.nodes, wg, num)
    ensures InTurnOrder(trials, social.nodes)
    ensures PairsOnce(trials)
    ensures CoveredOnce(social, trials, social.nodes, wg)
  {
    social := start;
    var members := social.nodes;
    rnd', trials := rnd, [];
    for i := 0 to |members|
      invariant social.nodes == members
      invariant Progress(social, trials, rnd, rnd', members[..i], wg, num)
      invariant InTurnOrder(trials, members)
      invariant PairsOnce(trials)
      invariant CoveredOnce(social, trials, members[..i], wg)
    {
      var source := members[i];
      var n := Without(Accumulate(wg, social, source), members[..i]);
      UnvisitedNeighbourhood(wg, social, source, members[..i]);
      var before, drawn, logged := social, rnd', trials;
      social, rnd' := AddEdgesMaybe(social, source, n, rnd', num);
      TurnOnce(wg, num, rnd, members, i, before, social, logged, drawn, rnd');
      OrderTurn(logged, members, i, n.keys);
      trials := trials + Trials(source, n.keys);
    }
    assert members[..|members|] == members;
  }

  /** The log's outcomes, stated against the initialisation of the input. */
  lemma OutcomesInInput(g: Graph, o: Options, num: Numerics, wg: Graph, social: Social, trials: seq<Edge>, rnd: Random)
    requires wg == InitWeights(g, num, o)
    requires LogExplains(social, trials, rnd, wg, num)
    ensures forall t :: 0 <= t < |trials| ==>
      (trials[t] in social.edges <==>
       rnd.draw(rnd.pos + t) <= PairProbability(InitWeights(g, num, o), num, trials[t].fromId, trials[t].toId))
  {
  }

  /** The generator's sharing facts, read back from the initialised graph
      `wg` to the input `g`, which has the same links: every link and every
      trial joins co-members, and the members of `done` each have a link or
      a trial toward every co-member. */
  lemma SharingInInput(g: Graph, wg: Graph, social: Social, trials: seq<Edge>, rnd: Random,
                       done: seq<NodeId>, num: Numerics)
    requires forall a, b :: SharesCommunity(wg, a, b) <==> SharesCommunity(g, a, b)
    requires LogExplains(social, trials, rnd, wg, num) && TrialsFrom(trials, done, wg)
    requires Covered(social, trials, done, wg)
    ensures forall k :: 0 <= k < |social.edges| ==>
      SharesCommunity(g, social.edges[k].fromId, social.edges[k].toId)
    ensures forall t :: 0 <= t < |trials| ==>
      trials[t].fromId != trials[t].toId && SharesCommunity(g, trials[t].fromId, trials[t].toId)
    ensures forall a, b :: a in done && SharesCommunity(g, a, b) && a != b ==>
      Linked(social, a, b) || Edge(a, b) in trials
  {
    forall k | 0 <= k < |social.edges|
      ensures SharesCommunity(g, social.edges[k].fromId, social.edges[k].toId)
    {
      var t :| 0 <= t < |trials| && trials[t] == social.edges[k];
    }
  }

  /** As `SharingInInput`, for the corrected generator's coverage. */
  lemma SharingOnceInInput(g: Graph, wg: Graph, social: Social, trials: seq<Edge>, rnd: Random,
                           done: seq<NodeId>, num: Numerics)
    requires forall a, b :: SharesCommunity(wg, a, b) <==> SharesCommunity(g, a, b)
    requires LogExplains(social, trials, rnd, wg, num) && TrialsFrom(trials, done, wg)
    requires CoveredOnce(social, trials, done, wg)
    ensures forall k :: 0 <= k < |social.edges| ==>
      SharesCommunity(g, social.edges[k].fromId, social.edges[k].toId)
    ensures forall t :: 0 <= t < |trials| ==>
      trials[t].fromId != trials[t].toId && SharesCommunity(g, trials[t].fromId, trials[t].toId)
    ensures forall a, b :: a in done && SharesCommunity(g, a, b) && a != b ==>
      Linked(social, a, b) || Edge(a, b) in trials || Edge(b, a) in trials
  {
    forall k | 0 <= k < |social.edges|
      ensures SharesCommunity(g, social.edges[k].fromId, social.edges[k].toId)
    {
      var t :| 0 <= t < |trials| && trials[t] == social.edges[k];
    }
  }

  /** The generator. Whatever the random stream returns, the result holds
      exactly the members, has no self-loop, joins each unordered pair at
      most once and only joins members sharing a community. The returned log
      lists, in order, every (source, neighbour) pair a draw was taken for:
      one draw per entry, a link exactly for the entries whose draw was at
      most the pair's probability, and an entry or a link for every member
      and every co-member. With all weights zero and no draw exactly zero
      there are no links at all. */
  method Generate(g: Graph, o: Options, num: Numerics, rnd: Random)
    returns (social: Social, rnd': Random, trials: seq<Edge>)
    requires WellFormed(g) && MemberToCommunity(g)
    ensures Distinct(social.nodes)
    ensures forall id :: id in social.nodes <==> id in g.nodes && !IsCommunityNode(g, id)
    ensures social.nodes == MembersIn(g, g.nodes)
    ensures NoSelfLoops(social) && AtMostOnePerPair(social)
    ensures forall k :: 0 <= k < |social.edges| ==>
      SharesCommunity(g, social.edges[k].fromId, social.edges[k].toId)
    ensures rnd'.draw == rnd.draw && rnd'.pos == rnd.pos + |trials|
    ensures InTurnOrder(trials, social.nodes)
    ensures Distinct(trials)
    ensures forall t :: 0 <= t < |trials| ==>
      (trials[t] in social.edges <==>
       rnd.draw(rnd.pos + t) <= PairProbability(InitWeights(g, num, o), num, trials[t].fromId, trials[t].toId))
    ensures forall k :: 0 <= k < |social.edges| ==> social.edges[k] in trials
    ensures forall t :: 0 <= t < |trials| ==>
      trials[t].fromId != trials[t].toId && SharesCommunity(g, trials[t].fromId, trials[t].toId)
    ensures forall a, b :: a in social.nodes && SharesCommunity(g, a, b) && a != b ==>
      Linked(social, a, b) || Edge(a, b) in trials
    ensures AllZero(g) && num.pow(num.e, 0.0) == 1.0 && (forall k: nat :: rnd.draw(k) > 0.0) ==> social.edges == []
  {
    var wg, start := Prepare(g, o, num);
    social, rnd', trials := SampleMembers(wg, start, rnd, num);
    SharingInInput(g, wg, social, trials, rnd, social.nodes, num);
    OutcomesInInput(g, o, num, wg, social, trials, rnd);
    if AllZero(g) && num.pow(num.e, 0.0) == 1.0 && (forall k: nat :: rnd.draw(k) > 0.0) {
      ZeroWeightsLogNoLinks(social, trials, rnd, wg, num);
    }
  }

  /** The generator with each unordered pair drawn for at most once: a
      member's turn also skips every member whose turn came earlier, since
      that member has already drawn for the pair. Everything else is as in
      `Generate`. */
  method GenerateOnce(g: Graph, o: Options, num: Numerics, rnd: Random)
    returns (social: Social, rnd': Random, trials: seq<Edge>)
    requires WellFormed(g) && MemberToCommunity(g)
    ensures Distinct(social.nodes)
    ensures forall id :: id in social.nodes <==> id in g.nodes && !IsCommunityNode(g, id)
    ensures social.nodes == MembersIn(g, g.nodes)
    ensures NoSelfLoops(social) && AtMostOnePerPair(social)
    ensures rnd'.draw == rnd.draw && rnd'.pos == rnd.pos + |trials|
    ensures InTurnOrder(trials, social.nodes)
    ensures forall t, u :: 0 <= t < u < |trials| ==> !SamePair(trials[t], trials[u])
    ensures forall t :: 0 <= t < |trials| ==>
      (trials[t] in social.edges <==>
       rnd.draw(rnd.pos + t) <= PairProbability(InitWeights(g, num, o), num, trials[t].fromId, trials[t].toId))
    ensures forall k :: 0 <= k < |social.edges| ==> social.edges[k] in trials
    ensures forall t :: 0 <= t < |trials| ==>
      trials[t].fromId != trials[t].toId && SharesCommunity(g, trials[t].fromId, trials[t].toId)
    ensures forall a, b :: a in social.nodes && SharesCommunity(g, a, b) && a != b ==>
      Linked(social, a, b) || Edge(a, b) in trials || Edge(b, a) in trials
    ensures AllZero(g) && num.pow(num.e, 0.0) == 1.0 && (forall k: nat :: rnd.draw(k) > 0.0) ==> social.edges == []
  {
    var wg, start := Prepare(g, o, num);
    social, rnd', trials := SampleMembersOnce(wg, start, rnd, num);
    SharingOnceInInput(g, wg, social, trials, rnd, social.nodes, num);
    OutcomesInInput(g, o, num, wg, social, trials, rnd);
    if AllZero(g) && num.pow(num.e, 0.0) == 1.0 && (forall k: nat :: rnd.draw(k) > 0.0) {
      ZeroWeightsLogNoLinks(social, trials, rnd, wg, num);
    }
  }
}

=== FILE: sampling.dfy ===
/**
  Sampling one member's turn: the seeded random stream and the pass that
  takes one draw per neighbour key and adds the links whose draw succeeds.
 */
module Sampling {
  import opened AffiliationGraph
  import opened Weights
  import opened SocialGraph
  import opened Affinity

  /** The seeded random stream: the k-th call to `nextDouble` returns
      `draw(k)`, and `pos` counts the calls made so far. */
  datatype Random = Random(draw: nat -> real, pos: nat)

  function NextDouble(rnd: Random): (real, Random) {
    (rnd.draw(rnd.pos), rnd.(pos := rnd.pos + 1))
  }

  /** The draw for the `i`-th key succeeds: it is at most the probability of
      that key's weight. */
  predicate Hit(n: Neighbors, i: nat, rnd: Random, num: Numerics)
    requires Valid(n) && i < |n.keys|
  {
    rnd.draw(rnd.pos + i) <= EdgeProbability(num, n.weight[n.keys[i]])
  }

  /** Reference result of sampling the first `i` keys: the links
      `source -> key` whose draw succeeds, in key order. */
  function Picked(source: NodeId, n: Neighbors, rnd: Random, num: Numerics, i: nat): seq<Edge>
    requires Valid(n) && i <= |n.keys|
  {
    if i == 0 then []
    else Picked(source, n, rnd, num, i - 1) + (if Hit(n, i - 1, rnd, num) then [Edge(source, n.keys[i - 1])] else [])
  }

  /** The picked links leave `source` toward keys among the first `i`. */
  lemma {:induction false} PickedTargets(source: NodeId, n: Neighbors, rnd: Random, num: Numerics, i: nat)
    requires Valid(n) && i <= |n.keys|
    ensures forall k :: 0 <= k < |Picked(source, n, rnd, num, i)| ==>
      Picked(source, n, rnd, num, i)[k].fromId == source &&
      Picked(source, n, rnd, num, i)[k].toId in n.keys[..i]
  {
    if i > 0 {
      PickedTargets(source, n, rnd, num, i - 1);
      assert n.keys[..i] == n.keys[..i - 1] + [n.keys[i - 1]];
    }
  }

  /** No two picked links go to the same key. */
  lemma {:induction false} PickedDistinctTargets(source: NodeId, n: Neighbors, rnd: Random, num: Numerics, i: nat)
    requires Valid(n) && i <= |n.keys|
    ensures forall k, m :: 0 <= k < m < |Picked(source, n, rnd, num, i)| ==>
      Picked(source, n, rnd, num, i)[k].toId != Picked(source, n, rnd, num, i)[m].toId
  {
    if i > 0 {
      PickedDistinctTargets(source, n, rnd, num, i - 1);
      PickedTargets(source, n, rnd, num, i - 1);
      assert n.keys[i - 1] !in n.keys[..i - 1];
    }
  }

  /** A key's link is picked exactly when its draw succeeds. */
  lemma {:induction false} PickedHits(source: NodeId, n: Neighbors, rnd: Random, num: Numerics, i: nat)
    requires Valid(n) && i <= |n.keys|
    ensures forall j :: 0 <= j < i ==>
      (Edge(source, n.keys[j]) in Picked(source, n, rnd, num, i) <==> Hit(n, j, rnd, num))
  {
    if i > 0 {
      PickedHits(source, n, rnd, num, i - 1);
      PickedTargets(source, n, rnd, num, i - 1);
      var p := Picked(source, n, rnd, num, i - 1);
      var x := n.keys[i - 1];
      assert x !in n.keys[..i - 1];
      assert Edge(source, x) !in p;
      forall j | 0 <= j < i - 1
        ensures n.keys[j] != x
      {
      }
    }
  }

  /** What one call of `AddEdgesMaybe` does to the social graph: links are
      only appended, each new one leaves `source` toward a different key, and
      a key gets its link exactly when its draw is at most its probability. */
  ghost predicate Sampled(before: Social, after: Social, source: NodeId, n: Neighbors, drawn: Random, num: Numerics)
    requires Valid(n)
  {
    && |before.edges| <= |after.edges| && after.edges[..|before.edges|] == before.edges
    && (forall k :: |before.edges| <= k < |after.edges| ==>
          after.edges[k].fromId == source && after.edges[k].toId in n.weight)
    && (forall k, m :: |before.edges| <= k < m < |after.edges| ==> after.edges[k].toId != after.edges[m].toId)
    && (forall i :: 0 <= i < |n.keys| ==>
          (Edge(source, n.keys[i]) in after.edges[|before.edges|..] <==>
           drawn.draw(drawn.pos + i) <= EdgeProbability(num, n.weight[n.keys[i]])))
  }

  /** Visits the neighbour keys in order, takes one draw for each and adds the
      link `source -> neighbour` exactly when the draw does not exceed the
      probability of the neighbour's weight. */
  method AddEdgesMaybe(s: Social, source: NodeId, n: Neighbors, rnd: Random, num: Numerics)
    returns (r: Social, rnd': Random)
    requires Valid(n)
    ensures rnd'.draw == rnd.draw && rnd'.pos == rnd.pos + |n.keys|
    ensures Sampled(s, r, source, n, rnd, num)
    ensures source in s.nodes && (forall k :: k in n.weight ==> k in s.nodes) ==> r.nodes == s.nodes
  {
    r, rnd' := s, rnd;
    for i := 0 to |n.keys|
      invariant rnd'.draw == rnd.draw && rnd'.pos == rnd.pos + i
      invariant r.edges == s.edges + Picked(source, n, rnd, num, i)
      invariant source in s.nodes && (forall k :: k in n.weight ==> k in s.nodes) ==> r.nodes == s.nodes
    {
      var neighborId := n.keys[i];
      var probability := EdgeProbability(num, n.weight[neighborId]);
      var (x, next) := NextDouble(rnd');
      rnd' := next;
      if x <= probability {
        r := AddLink(r, source, neighborId);
      }
    }
    ConcatParts(s.edges, Picked(source, n, rnd, num, |n.keys|));
    AppendPickedEnds(s, r, source, n, rnd, num);
    AppendPickedDistinct(s, r, source, n, rnd, num);
    AppendPickedHits(s, r, source, n, rnd, num);
  }

  /** Appending the picked links: every new link leaves `source` toward a key. */
  lemma AppendPickedEnds(s: Social, r: Social, source: NodeId, n: Neighbors, rnd: Random, num: Numerics)
    requires Valid(n)
    requires r.edges == s.edges + Picked(source, n, rnd, num, |n.keys|)
    ensures forall k :: |s.edges| <= k < |r.edges| ==> r.edges[k].fromId == source && r.edges[k].toId in n.weight
  {
    var p := Picked(source, n, rnd, num, |n.keys|);
    ConcatParts(s.edges, p);
    PickedTargets(source, n, rnd, num, |n.keys|);
    assert n.keys[..|n.keys|] == n.keys;
  }

  /** Appending the picked links: no two new links go to the same key. */
  lemma AppendPickedDistinct(s: Social, r: Social, source: NodeId, n: Neighbors, rnd: Random, num: Numerics)
    requires Valid(n)
    requires r.edges == s.edges + Picked(source, n, rnd, num, |n.keys|)
    ensures forall k, m :: |s.edges| <= k < m < |r.edges| ==> r.edges[k].toId != r.edges[m].toId
  {
    ConcatParts(s.edges, Picked(source, n, rnd, num, |n.keys|));
    PickedDistinctTargets(source, n, rnd, num, |n.keys|);
  }

  /** Appending the picked links: a key's link is new exactly when its draw
      succeeds. */
  lemma AppendPickedHits(s: Social, r: Social, source: NodeId, n: Neighbors, rnd: Random, num: Numerics)
    requires Valid(n)
    requires r.edges == s.edges + Picked(source, n, rnd, num, |n.keys|)
    ensures forall i :: 0 <= i < |n.keys| ==>
      (Edge(source, n.keys[i]) in r.edges[|s.edges|..] <==>
       rnd.draw(rnd.pos + i) <= EdgeProbability(num, n.weight[n.keys[i]]))
  {
    ConcatParts(s.edges, Picked(source, n, rnd, num, |n.keys|));
    PickedHits(source, n, rnd, num, |n.keys|);
  }

  lemma ConcatParts<T>(a: seq<T>, b: seq<T>)
    ensures (a + b)[..|a|] == a && (a + b)[|a|..] == b
    ensures forall k :: |a| <= k < |a + b| ==> (a + b)[k] == b[k - |a|]
  {
  }

  lemma PrefixStep<T>(xs: seq<T>, i: nat)
    requires i < |xs|
    ensures xs[..i + 1] == xs[..i] + [xs[i]]
  {
  }

  lemma FirstOfSuffix<T>(xs: seq<T>, start: nat)
    ensures start < |xs| ==> xs[start] in xs[start..]
  {
    if start < |xs| {
      assert xs[start..][0] == xs[start];
    }
  }

  /** When every candidate weighs zero, `Math.pow(Math.E, 0)` is one and no
      draw is exactly zero, sampling adds no link. */
  lemma ZeroWeightsAddNothing(s: Social, r: Social, source: NodeId, n: Neighbors, rnd: Random, num: Numerics)
    requires Valid(n)
    requires forall x :: x in n.weight ==> n.weight[x] == 0.0
    requires num.pow(num.e, 0.0) == 1.0
    requires forall k: nat :: rnd.draw(k) > 0.0
    requires |s.edges| <= |r.edges|
    requires forall k :: |s.edges| <= k < |r.edges| ==> r.edges[k].fromId == source && r.edges[k].toId in n.weight
    requires forall i :: 0 <= i < |n.keys| ==>
      (Edge(source, n.keys[i]) in r.edges[|s.edges|..] <==>
       rnd.draw(rnd.pos + i) <= EdgeProbability(num, n.weight[n.keys[i]]))
    ensures |r.edges| == |s.edges|
  {
    FirstOfSuffix(r.edges, |s.edges|);
  }
}

=== FILE: scenario.dfy ===
/**
  The two scenarios of the repository's tests: four users in two groups,
  once with weights left to the default and once with every weight zero.
 */
module Scenario {
  import opened AffiliationGraph
  import opened Weights
  import opened SocialGraph
  import opened Affinity
  import opened Sampling
  import opened Agm

  /** Users 0-2 belong to group 1 and users 1-3 to group 2; every link
      carries `w`. Nodes appear in the order the links first mention them. */
  function TestGraph(w: Value): Graph {
    Graph(
      ["user 0", "group 1", "user 1", "user 2", "group 2", "user 3"],
      [ Link("user 0", "group 1", w), Link("user 1", "group 1", w), Link("user 2", "group 1", w),
        Link("user 1", "group 2", w), Link("user 2", "group 2", w), Link("user 3", "group 2", w) ])
  }

  const Users: set<NodeId> := {"user 0", "user 1", "user 2", "user 3"}

  /** Every user id starts with 'u' and every group id with 'g'; within
      each kind the last character tells the ids apart. */
  lemma TestGraphIds(w: Value)
    ensures forall i :: 0 <= i < |TestGraph(w).links| ==>
      TestGraph(w).links[i].fromId[0] == 'u' && TestGraph(w).links[i].toId[0] == 'g'
  {
  }

  /** Every link runs from a user to a group. */
  lemma TestGraphDirection(w: Value)
    ensures MemberToCommunity(TestGraph(w))
  {
    TestGraphIds(w);
  }

  lemma TestGraphContract(w: Value)
    ensures WellFormed(TestGraph(w)) && MemberToCommunity(TestGraph(w))
  {
    var g := TestGraph(w);
    TestGraphIds(w);
    TestGraphDirection(w);
    forall i, j | 0 <= i < j < |g.nodes|
      ensures g.nodes[i] != g.nodes[j]
    {
      assert g.nodes[i][0] != g.nodes[j][0] || g.nodes[i][|g.nodes[i]| - 1] != g.nodes[j][|g.nodes[j]| - 1];
    }
    forall l | l in g.links
      ensures l.fromId in g.nodes && l.toId in g.nodes
    {
    }
  }

  lemma TestGraphAllZero()
    ensures AllZero(TestGraph(Number(0.0)))
  {
  }

  /** A node of the test graph is a member exactly when its id starts with
      'u': users are link sources, groups are not. */
  lemma TestGraphClass(w: Value, k: nat)
    requires k < |TestGraph(w).nodes|
    ensures !IsCommunityNode(TestGraph(w), TestGraph(w).nodes[k]) <==> TestGraph(w).nodes[k][0] == 'u'
  {
    var g := TestGraph(w);
    TestGraphDirection(w);
    if k == 0 {
      ClassifyByDirection(g, g.nodes[0]);
      assert g.links[0].fromId == g.nodes[0];
    } else if k == 2 {
      ClassifyByDirection(g, g.nodes[2]);
      assert g.links[1].fromId == g.nodes[2];
    } else if k == 3 {
      ClassifyByDirection(g, g.nodes[3]);
      assert g.links[2].fromId == g.nodes[3];
    } else if k == 5 {
      ClassifyByDirection(g, g.nodes[5]);
      assert g.links[5].fromId == g.nodes[5];
    } else {
      TestGraphIds(w);
      ClassifyByDirection(g, g.nodes[k]);
    }
  }

  lemma UsersByInitial(w: Value)
    ensures forall id :: id in Users <==> id in TestGraph(w).nodes && id[0] == 'u'
  {
  }

  /** The classification rule picks out exactly the four users. */
  lemma TestGraphMembers(w: Value)
    ensures forall id :: id in TestGraph(w).nodes && !IsCommunityNode(TestGraph(w), id) <==> id in Users
  {
    var g := TestGraph(w);
    forall id | id in g.nodes
      ensures !IsCommunityNode(g, id) <==> id[0] == 'u'
    {
      var k :| 0 <= k < |g.nodes| && g.nodes[k] == id;
      TestGraphClass(w, k);
    }
    UsersByInitial(w);
  }

  lemma {:induction false} DistinctCardinality(s: seq<NodeId>)
    requires Distinct(s)
    ensures |set x | x in s| == |s|
  {
    if |s| > 0 {
      DistinctCardinality(s[1..]);
      assert (set x | x in s) == {s[0]} + (set x | x in s[1..]);
      assert s[0] !in s[1..];
    }
  }

  lemma FourUsers(nodes: seq<NodeId>)
    requires Distinct(nodes)
    requires forall id :: id in nodes <==> id in Users
    ensures |nodes| == 4
  {
    DistinctCardinality(nodes);
    assert (set x | x in nodes) == Users;
  }

  /** First test: with default weights the social graph has the four users. */
  method DefaultWeightScenario(num: Numerics, rnd: Random) returns (social: Social)
    ensures |social.nodes| == 4
    ensures forall id :: id in social.nodes <==> id in Users
    ensures NoSelfLoops(social) && AtMostOnePerPair(social)
  {
    var g := TestGraph(NonNumber);
    TestGraphContract(NonNumber);
    TestGraphMembers(NonNumber);
    var next, trials;
    social, next, trials := Generate(g, Options(NonNumber, NonNumber), num, rnd);
    FourUsers(social.nodes);
  }

  /** Second test: with every weight zero the social graph has the four users
      and no link, unless some draw is exactly zero. */
  method ZeroWeightScenario(num: Numerics, rnd: Random) returns (social: Social)
    requires num.pow(num.e, 0.0) == 1.0
    requires forall k: nat :: rnd.draw(k) > 0.0
    ensures |social.nodes| == 4
    ensures social.edges == []
  {
    var g := TestGraph(Number(0.0));
    TestGraphContract(Number(0.0));
    TestGraphMembers(Number(0.0));
    TestGraphAllZero();
    var next, trials;
    social, next, trials := Generate(g, Options(NonNumber, NonNumber), num, rnd);
    FourUsers(social.nodes);
  }

  /** Users 0 and 1 are members of the test graph and share group 1. */
  lemma UsersZeroOneShare(w: Value)
    ensures "user 0" in TestGraph(w).nodes && !IsCommunityNode(TestGraph(w), "user 0")
    ensures "user 1" in TestGraph(w).nodes && !IsCommunityNode(TestGraph(w), "user 1")
    ensures SharesCommunity(TestGraph(w), "user 0", "user 1")
    ensures SharesCommunity(TestGraph(w), "user 1", "user 0")
    ensures "user 0" != "user 1"
  {
    var g := TestGraph(w);
    TestGraphMembers(w);
    assert "user 0"[5] != "user 1"[5];
    assert g.links[0].fromId == "user 0" && g.links[1].fromId == "user 1" && g.links[0].toId == g.links[1].toId;
  }

  /** In a graph with no links, two co-members that must each have a link or
      a trial toward the other have both been tried. */
  lemma BothWaysTried(g: Graph, social: Social, trials: seq<Edge>, a: NodeId, b: NodeId)
    requires social.edges == []
    requires forall id :: id in social.nodes <==> id in g.nodes && !IsCommunityNode(g, id)
    requires a in g.nodes && !IsCommunityNode(g, a) && b in g.nodes && !IsCommunityNode(g, b) && a != b
    requires SharesCommunity(g, a, b) && SharesCommunity(g, b, a)
    requires forall x, y :: x in social.nodes && SharesCommunity(g, x, y) && x != y ==>
      Linked(social, x, y) || Edge(x, y) in trials
    ensures Edge(a, b) in trials && Edge(b, a) in trials
  {
    assert a in social.nodes && b in social.nodes;
    assert !Linked(social, a, b) && !Linked(social, b, a);
  }

  /** In a graph with no links, where every pair of co-members has a link or
      a trial in one direction and no pair is tried twice, exactly one
      direction of the pair has been tried. */
  lemma OneWayTried(g: Graph, social: Social, trials: seq<Edge>, a: NodeId, b: NodeId)
    requires social.edges == []
    requires forall id :: id in social.nodes <==> id in g.nodes && !IsCommunityNode(g, id)
    requires a in g.nodes && !IsCommunityNode(g, a) && a != b
    requires SharesCommunity(g, a, b)
    requires forall x, y :: x in social.nodes && SharesCommunity(g, x, y) && x != y ==>
      Linked(social, x, y) || Edge(x, y) in trials || Edge(y, x) in trials
    requires forall t, u :: 0 <= t < u < |trials| ==> !SamePair(trials[t], trials[u])
    ensures (Edge(a, b) in trials) != (Edge(b, a) in trials)
  {
    assert a in social.nodes && !Linked(social, a, b);
    if Edge(a, b) in trials && Edge(b, a) in trials {
      var t :| 0 <= t < |trials| && trials[t] == Edge(a, b);
      var u :| 0 <= u < |trials| && trials[u] == Edge(b, a);
      assert SamePair(trials[t], trials[u]) && SamePair(trials[u], trials[t]);
      assert false;
    }
  }

  /** The second test's graph as the generator handles it: no draw succeeds,
      so user 0's turn leaves users 0 and 1 unlinked, and user 1's turn
      draws for the same pair a second time. */
  method PairDrawnTwice(num: Numerics, rnd: Random) returns (social: Social, trials: seq<Edge>)
    requires num.pow(num.e, 0.0) == 1.0
    requires forall k: nat :: rnd.draw(k) > 0.0
    ensures social.edges == []
    ensures Edge("user 0", "user 1") in trials && Edge("user 1", "user 0") in trials
  {
    var g := TestGraph(Number(0.0));
    TestGraphContract(Number(0.0));
    TestGraphAllZero();
    UsersZeroOneShare(Number(0.0));
    var next;
    social, next, trials := Generate(g, Options(NonNumber, NonNumber), num, rnd);
    BothWaysTried(g, social, trials, "user 0", "user 1");
  }

  /** The same graph under the corrected generator: the pair of users 0 and 1
      is drawn for exactly once. */
  method PairDrawnOnce(num: Numerics, rnd: Random) returns (social: Social, trials: seq<Edge>)
    requires num.pow(num.e, 0.0) == 1.0
    requires forall k: nat :: rnd.draw(k) > 0.0
    ensures social.edges == []
    ensures (Edge("user 0", "user 1") in trials) != (Edge("user 1", "user 0") in trials)
  {
    var g := TestGraph(Number(0.0));
    TestGraphContract(Number(0.0));
    TestGraphAllZero();
    UsersZeroOneShare(Number(0.0));
    var next;
    social, next, trials := GenerateOnce(g, Options(NonNumber, NonNumber), num, rnd);
    OneWayTried(g, social, trials, "user 0", "user 1");
  }

  /** Member `a` and member `b` in one community `c`, with weights `wa` and -1. */
  function NegativeGraph(wa: real): Graph {
    Graph(["a", "c", "b"], [Link("a", "c", Number(wa)), Link("b", "c", Number(-1.0))])
  }

  /** A negative membership weight breaks monotonicity: raising `a`'s weight
      from 1 to 2 lowers its affinity to `b` from -1 to -2. */
  lemma NegativeWeightLowersAffinity()
    ensures ReferenceAffinity(NegativeGraph(1.0), OutLinks(NegativeGraph(1.0), "a"), "b") == -1.0
    ensures ReferenceAffinity(NegativeGraph(2.0), OutLinks(NegativeGraph(2.0), "a"), "b") == -2.0
  {
    assert "a" != "b" && "a" != "c" && "b" != "c";
    var g1, g2 := NegativeGraph(1.0), NegativeGraph(2.0);
    assert g1.links[1..][1..] == [] && g2.links[1..][1..] == [];
    assert OutLinks(g1, "a") == [g1.links[0]];
    assert OutLinks(g2, "a") == [g2.links[0]];
    assert LinksOf(g1, "c") == g1.links;
    assert LinksOf(g2, "c") == g2.links;
  }
}

=== FILE: social.dfy ===
/**
  The social graph the generator builds: member nodes and directed links
  between them, both kept in insertion order.
 */
module SocialGraph {
  import opened AffiliationGraph

  datatype Edge = Edge(fromId: NodeId, toId: NodeId)

  datatype Social = Social(nodes: seq<NodeId>, edges: seq<Edge>)

  /** The graph library's `addNode`: adding an id that is already present
      changes nothing. */
  function AddNode(s: Social, id: NodeId): (r: Social)
    ensures r.edges == s.edges
    ensures forall x :: x in r.nodes <==> x in s.nodes || x == id
    ensures Distinct(s.nodes) ==> Distinct(r.nodes)
    ensures id in s.nodes ==> r == s
    ensures id !in s.nodes ==> r.nodes == s.nodes + [id]
  {
    if id in s.nodes then s else Social(s.nodes + [id], s.edges)
  }

  /** The graph library's `addLink`: missing endpoints are added as nodes and
      the link is appended without any duplicate check. */
  function AddLink(s: Social, fromId: NodeId, toId: NodeId): (r: Social)
    ensures r.edges == s.edges + [Edge(fromId, toId)]
    ensures forall x :: x in r.nodes <==> x in s.nodes || x == fromId || x == toId
    ensures fromId in s.nodes && toId in s.nodes ==> r.nodes == s.nodes
  {
    var withEnds := AddNode(AddNode(s, fromId), toId);
    Social(withEnds.nodes, s.edges + [Edge(fromId, toId)])
  }

  /** The graph library's `hasLink(a, b)`: a link from `a` to `b`. */
  predicate HasLink(s: Social, a: NodeId, b: NodeId) {
    Edge(a, b) in s.edges
  }

  /** A link between `a` and `b` in either direction. */
  predicate Linked(s: Social, a: NodeId, b: NodeId) {
    HasLink(s, a, b) || HasLink(s, b, a)
  }

  predicate NoSelfLoops(s: Social) {
    forall k :: 0 <= k < |s.edges| ==> s.edges[k].fromId != s.edges[k].toId
  }

  predicate SamePair(e: Edge, f: Edge) {
    (e.fromId == f.fromId && e.toId == f.toId) || (e.fromId == f.toId && e.toId == f.fromId)
  }

  /** No two links join the same unordered pair of nodes. */
  predicate AtMostOnePerPair(s: Social) {
    forall k, m :: 0 <= k < m < |s.edges| ==> !SamePair(s.edges[k], s.edges[m])
  }

  /** Appending links that all leave `source`, go to pairwise different nodes
      other than `source`, and join `source` to nodes it was not yet linked
      with, keeps the graph free of self-loops and of duplicate pairs. */
  lemma AppendFromSource(s: Social, r: Social, source: NodeId)
    requires NoSelfLoops(s) && AtMostOnePerPair(s)
    requires |s.edges| <= |r.edges| && r.edges[..|s.edges|] == s.edges
    requires forall k :: |s.edges| <= k < |r.edges| ==>
      r.edges[k].fromId == source && r.edges[k].toId != source && !Linked(s, source, r.edges[k].toId)
    requires forall k, m :: |s.edges| <= k < m < |r.edges| ==> r.edges[k].toId != r.edges[m].toId
    ensures NoSelfLoops(r) && AtMostOnePerPair(r)
  {
    forall k | 0 <= k < |s.edges|
      ensures r.edges[k] == s.edges[k]
    {
      assert r.edges[k] == r.edges[..|s.edges|][k];
    }
    forall k, m | 0 <= k < m < |r.edges|
      ensures !SamePair(r.edges[k], r.edges[m])
    {
      if k < |s.edges| && |s.edges| <= m {
        var e := r.edges[k];
        var t := r.edges[m].toId;
        assert e in s.edges;
        assert !Linked(s, source, t);
      }
    }
  }
}

=== FILE: triallog.dfy ===
/**
  The trial log: the directed pairs the generator has drawn for, in draw
  order. It is the bridge between one member's turn and the generator's
  whole result: each turn extends the log, and the log explains every link.
 */
module TrialLog {
  import opened AffiliationGraph
  import opened Weights
  import opened SocialGraph
  import opened Affinity
  import opened Sampling

  /** The chance the generator gives the link `a -> b`: the edge probability
      of the affinity from `a`'s communities to `b`. */
  function PairProbability(wg: Graph, num: Numerics, a: NodeId, b: NodeId): real {
    EdgeProbability(num, ReferenceAffinity(wg, OutLinks(wg, a), b))
  }

  /** Raising non-negative membership weights never lowers a pair's chance,
      provided `pow(e, x)` is increasing in `x`. */
  lemma PairProbabilityMonotone(g: Graph, h: Graph, num: Numerics, a: NodeId, b: NodeId)
    requires Raised(g.links, h.links)
    requires forall x, y :: x <= y ==> num.pow(num.e, x) <= num.pow(num.e, y)
    ensures PairProbability(g, num, a, b) <= PairProbability(h, num, a, b)
  {
    AffinityMonotone(g, h, a, b);
  }

  /** The pairs one member's turn draws for: the source with each key. */
  function Trials(source: NodeId, keys: seq<NodeId>): (r: seq<Edge>)
    ensures |r| == |keys|
    ensures forall j :: 0 <= j < |keys| ==> r[j] == Edge(source, keys[j])
  {
    seq(|keys|, j requires 0 <= j < |keys| => Edge(source, keys[j]))
  }

  /** The trial log explains the links: no directed pair is tried twice, the
      `t`-th trial used draw `rnd.pos + t` and its link exists exactly when
      that draw was at most the pair's probability, and every link is a
      logged trial. */
  ghost predicate LogExplains(social: Social, trials: seq<Edge>, rnd: Random, wg: Graph, num: Numerics) {
    && Distinct(trials)
    && (forall t :: 0 <= t < |trials| ==>
          (trials[t] in social.edges <==>
           rnd.draw(rnd.pos + t) <= PairProbability(wg, num, trials[t].fromId, trials[t].toId)))
    && (forall k :: 0 <= k < |social.edges| ==> social.edges[k] in trials)
  }

  lemma LogDistinct(trials: seq<Edge>, source: NodeId, keys: seq<NodeId>)
    requires Distinct(trials) && Distinct(keys)
    requires forall t :: 0 <= t < |trials| ==> trials[t].fromId != source
    ensures Distinct(trials + Trials(source, keys))
  {
    var log := trials + Trials(source, keys);
    forall t, u | 0 <= t < u < |log|
      ensures log[t] != log[u]
    {
      if |trials| <= t {
        assert keys[t - |trials|] != keys[u - |trials|];
      } else if |trials| <= u {
        assert log[u].fromId == source;
      }
    }
  }

  /** Links appended from `source` do not touch any pair whose first end is
      another node. */
  lemma OthersUnchanged(before: Social, after: Social, source: NodeId, e: Edge)
    requires |before.edges| <= |after.edges| && after.edges[..|before.edges|] == before.edges
    requires forall k :: |before.edges| <= k < |after.edges| ==> after.edges[k].fromId == source
    requires e.fromId != source
    ensures e in after.edges <==> e in before.edges
  {
    if e in after.edges {
      var k :| 0 <= k < |after.edges| && after.edges[k] == e;
      assert after.edges[k] == before.edges[k];
    }
    if e in before.edges {
      var k :| 0 <= k < |before.edges| && before.edges[k] == e;
      assert after.edges[k] == after.edges[..|before.edges|][k];
    }
  }

  /** When `source` had no link before its turn, its links afterwards are
      exactly the keys whose draw succeeded. */
  lemma TurnLinks(before: Social, after: Social, source: NodeId, n: Neighbors, drawn: Random, num: Numerics, j: nat)
    requires Valid(n) && Sampled(before, after, source, n, drawn, num)
    requires forall k :: 0 <= k < |before.edges| ==> before.edges[k].fromId != source
    requires j < |n.keys|
    ensures Edge(source, n.keys[j]) in after.edges <==>
      drawn.draw(drawn.pos + j) <= EdgeProbability(num, n.weight[n.keys[j]])
  {
    var e := Edge(source, n.keys[j]);
    assert after.edges == before.edges + after.edges[|before.edges|..];
    assert e !in before.edges;
  }

  /** Trials that start elsewhere than `source` keep their outcome. */
  lemma LogOldOutcomes(before: Social, after: Social, trials: seq<Edge>, source: NodeId, n: Neighbors,
                       drawn: Random, num: Numerics)
    requires forall t :: 0 <= t < |trials| ==> trials[t].fromId != source
    requires Valid(n) && Sampled(before, after, source, n, drawn, num)
    ensures forall t :: 0 <= t < |trials| ==> (trials[t] in after.edges <==> trials[t] in before.edges)
  {
    forall t | 0 <= t < |trials|
      ensures trials[t] in after.edges <==> trials[t] in before.edges
    {
      OthersUnchanged(before, after, source, trials[t]);
    }
  }

  /** The turn's own trials are linked exactly when their draw succeeds. */
  lemma LogNewOutcomes(before: Social, after: Social, source: NodeId, n: Neighbors, drawn: Random, num: Numerics)
    requires Valid(n) && Sampled(before, after, source, n, drawn, num)
    requires forall k :: 0 <= k < |before.edges| ==> before.edges[k].fromId != source
    ensures forall j :: 0 <= j < |n.keys| ==>
      (Edge(source, n.keys[j]) in after.edges <==> drawn.draw(drawn.pos + j) <= EdgeProbability(num, n.weight[n.keys[j]]))
  {
    forall j | 0 <= j < |n.keys|
      ensures Edge(source, n.keys[j]) in after.edges <==> drawn.draw(drawn.pos + j) <= EdgeProbability(num, n.weight[n.keys[j]])
    {
      TurnLinks(before, after, source, n, drawn, num, j);
    }
  }

  /** No link leaves `source` before its turn when every link is a trial and
      no trial starts at `source`. */
  lemma NoLinkFromSource(before: Social, trials: seq<Edge>, source: NodeId)
    requires forall k :: 0 <= k < |before.edges| ==> before.edges[k] in trials
    requires forall t :: 0 <= t < |trials| ==> trials[t].fromId != source
    ensures forall k :: 0 <= k < |before.edges| ==> before.edges[k].fromId != source
  {
    forall k | 0 <= k < |before.edges|
      ensures before.edges[k].fromId != source
    {
      var t :| 0 <= t < |trials| && trials[t] == before.edges[k];
    }
  }

  /** After the turn, each logged trial's pair is linked exactly when its
      draw succeeded: earlier trials are untouched, the new ones follow the
      turn's draws. */
  lemma LogOutcomes(before: Social, after: Social, trials: seq<Edge>, source: NodeId, n: Neighbors,
                    rnd: Random, drawn: Random, wg: Graph, num: Numerics)
    requires LogExplains(before, trials, rnd, wg, num)
    requires forall t :: 0 <= t < |trials| ==> trials[t].fromId != source
    requires Valid(n) && Sampled(before, after, source, n, drawn, num)
    requires forall x :: x in n.weight ==> n.weight[x] == ReferenceAffinity(wg, OutLinks(wg, source), x)
    requires drawn.draw == rnd.draw && drawn.pos == rnd.pos + |trials|
    ensures forall t :: 0 <= t < |trials + Trials(source, n.keys)| ==>
      ((trials + Trials(source, n.keys))[t] in after.edges <==>
       rnd.draw(rnd.pos + t) <= PairProbability(wg, num, (trials + Trials(source, n.keys))[t].fromId,
                                                (trials + Trials(source, n.keys))[t].toId))
  {
    var log := trials + Trials(source, n.keys);
    NoLinkFromSource(before, trials, source);
    LogOldOutcomes(before, after, trials, source, n, drawn, num);
    LogNewOutcomes(before, after, source, n, drawn, num);
    forall t | 0 <= t < |trials|
      ensures log[t] in after.edges <==>
        rnd.draw(rnd.pos + t) <= PairProbability(wg, num, log[t].fromId, log[t].toId)
    {
      assert log[t] == trials[t];
    }
    forall t | |trials| <= t < |log|
      ensures log[t] in after.edges <==>
        rnd.draw(rnd.pos + t) <= PairProbability(wg, num, log[t].fromId, log[t].toId)
    {
      var j := t - |trials|;
      assert log[t] == Edge(source, n.keys[j]);
      assert n.keys[j] in n.weight;
    }
  }

  /** After the turn every link is a logged trial. */
  lemma LogCoversLinks(before: Social, after: Social, trials: seq<Edge>, source: NodeId, n: Neighbors,
                       drawn: Random, num: Numerics)
    requires forall k :: 0 <= k < |before.edges| ==> before.edges[k] in trials
    requires Valid(n) && Sampled(before, after, source, n, drawn, num)
    ensures forall k :: 0 <= k < |after.edges| ==> after.edges[k] in trials + Trials(source, n.keys)
  {
    var log := trials + Trials(source, n.keys);
    forall k | 0 <= k < |after.edges|
      ensures after.edges[k] in log
    {
      if k < |before.edges| {
        assert after.edges[k] == after.edges[..|before.edges|][k];
      } else {
        var j :| 0 <= j < |n.keys| && n.keys[j] == after.edges[k].toId;
        assert log[|trials| + j] == after.edges[k];
      }
    }
  }

  /** One member's turn extends the trial log by its keys and keeps the log
      explaining the links, provided no earlier trial started at `source`. */
  lemma LogTurn(before: Social, after: Social, trials: seq<Edge>, source: NodeId, n: Neighbors,
                rnd: Random, drawn: Random, wg: Graph, num: Numerics)
    requires LogExplains(before, trials, rnd, wg, num)
    requires forall t :: 0 <= t < |trials| ==> trials[t].fromId != source
    requires Valid(n) && Sampled(before, after, source, n, drawn, num)
    requires forall x :: x in n.weight ==> n.weight[x] == ReferenceAffinity(wg, OutLinks(wg, source), x)
    requires drawn.draw == rnd.draw && drawn.pos == rnd.pos + |trials|
    ensures LogExplains(after, trials + Trials(source, n.keys), rnd, wg, num)
  {
    LogDistinct(trials, source, n.keys);
    LogOutcomes(before, after, trials, source, n, rnd, drawn, wg, num);
    LogCoversLinks(before, after, trials, source, n, drawn, num);
  }

  /** Every trial starts at a member of `done`, joins two different nodes and
      those two share a community. */
  ghost predicate TrialsFrom(trials: seq<Edge>, done: seq<NodeId>, wg: Graph) {
    forall t :: 0 <= t < |trials| ==>
      && trials[t].fromId in done
      && trials[t].fromId != trials[t].toId
      && SharesCommunity(wg, trials[t].fromId, trials[t].toId)
  }

  lemma TrialsTurn(trials: seq<Edge>, done: seq<NodeId>, source: NodeId, n: Neighbors, wg: Graph)
    requires TrialsFrom(trials, done, wg)
    requires Valid(n)
    requires forall x :: x in n.weight ==> x != source && SharesCommunity(wg, source, x)
    ensures TrialsFrom(trials + Trials(source, n.keys), done + [source], wg)
  {
    var log := trials + Trials(source, n.keys);
    forall t | 0 <= t < |log|
      ensures log[t].fromId in done + [source]
    {
      if t < |trials| {
        assert log[t] == trials[t];
      }
    }
    forall t | |trials| <= t < |log|
      ensures log[t].fromId != log[t].toId && SharesCommunity(wg, log[t].fromId, log[t].toId)
    {
      assert n.keys[t - |trials|] in n.weight;
    }
  }

  /** Every member of `done` has, for each co-member, a link or a trial
      toward it. */
  ghost predicate Covered(social: Social, trials: seq<Edge>, done: seq<NodeId>, wg: Graph) {
    forall a, b :: a in done && SharesCommunity(wg, a, b) && a != b ==>
      Linked(social, a, b) || Edge(a, b) in trials
  }

  lemma CoverTurn(before: Social, after: Social, trials: seq<Edge>, done: seq<NodeId>,
                  source: NodeId, n: Neighbors, wg: Graph)
    requires Covered(before, trials, done, wg)
    requires |before.edges| <= |after.edges| && after.edges[..|before.edges|] == before.edges
    requires forall b :: Candidate(before, source, b) && SharesCommunity(wg, source, b) ==> b in n.keys
    ensures Covered(after, trials + Trials(source, n.keys), done + [source], wg)
  {
    var log := trials + Trials(source, n.keys);
    forall a, b | a in done + [source] && SharesCommunity(wg, a, b) && a != b
      ensures Linked(after, a, b) || Edge(a, b) in log
    {
      LinkedPersists(before, after, a, b);
      if a in done {
        if Edge(a, b) in trials {
          var t :| 0 <= t < |trials| && trials[t] == Edge(a, b);
          assert log[t] == Edge(a, b);
        }
      } else if !Linked(before, a, b) {
        var j :| 0 <= j < |n.keys| && n.keys[j] == b;
        assert log[|trials| + j] == Edge(a, b);
      }
    }
  }

  /** A link, once there, stays when links are only appended. */
  lemma LinkedPersists(before: Social, after: Social, a: NodeId, b: NodeId)
    requires |before.edges| <= |after.edges| && after.edges[..|before.edges|] == before.edges
    ensures Linked(before, a, b) ==> Linked(after, a, b)
  {
    if HasLink(before, a, b) {
      var k :| 0 <= k < |before.edges| && before.edges[k] == Edge(a, b);
      assert after.edges[k] == after.edges[..|before.edges|][k];
    }
    if HasLink(before, b, a) {
      var k :| 0 <= k < |before.edges| && before.edges[k] == Edge(b, a);
      assert after.edges[k] == after.edges[..|before.edges|][k];
    }
  }

  /** With every weight zero, `pow(e, 0)` one and no draw exactly zero, a log
      that explains the links leaves no room for any link. */
  lemma ZeroWeightsLogNoLinks(social: Social, trials: seq<Edge>, rnd: Random, wg: Graph, num: Numerics)
    requires LogExplains(social, trials, rnd, wg, num)
    requires forall i :: 0 <= i < |wg.links| ==> WeightOf(wg.links[i]) == 0.0
    requires num.pow(num.e, 0.0) == 1.0
    requires forall k: nat :: rnd.draw(k) > 0.0
    ensures social.edges == []
  {
    if |social.edges| > 0 {
      var e := social.edges[0];
      var t :| 0 <= t < |trials| && trials[t] == e;
      AffinityZero(wg, OutLinks(wg, e.fromId), e.toId);
      assert false;
    }
  }

  /** Every key of the neighbour map is a member co-member of `source` not yet
      linked to it, and every such co-member is a key. */
  lemma NeighbourhoodOf(wg: Graph, s: Social, source: NodeId)
    requires WellFormed(wg) && MemberToCommunity(wg)
    ensures forall x :: x in Accumulate(wg, s, source).weight ==>
      && Candidate(s, source, x) && SharesCommunity(wg, source, x)
      && x in wg.nodes && !IsCommunityNode(wg, x)
    ensures forall b :: Candidate(s, source, b) && SharesCommunity(wg, source, b) ==>
      b in Accumulate(wg, s, source).weight
  {
    forall x | x in Accumulate(wg, s, source).weight
      ensures SharesCommunity(wg, source, x) && x in wg.nodes && !IsCommunityNode(wg, x)
    {
      ReachesIffSharesCommunity(wg, source, x);
      SharedAreMembers(wg, source, x);
    }
    forall b | Candidate(s, source, b) && SharesCommunity(wg, source, b)
      ensures b in Accumulate(wg, s, source).weight
    {
      ReachesIffSharesCommunity(wg, source, b);
    }
  }

  /** The neighbour map of the corrected generator: the keys are the members
      sharing a community with `source`, not linked to it and not listed in
      `done`, each with its reference affinity. */
  lemma UnvisitedNeighbourhood(wg: Graph, s: Social, source: NodeId, done: seq<NodeId>)
    requires WellFormed(wg) && MemberToCommunity(wg)
    ensures Valid(Without(Accumulate(wg, s, source), done))
    ensures forall x :: x in Without(Accumulate(wg, s, source), done).weight ==>
      && Candidate(s, source, x) && SharesCommunity(wg, source, x) && x !in done
      && x in wg.nodes && !IsCommunityNode(wg, x)
      && Without(Accumulate(wg, s, source), done).weight[x] == ReferenceAffinity(wg, OutLinks(wg, source), x)
    ensures forall j :: 0 <= j < |Without(Accumulate(wg, s, source), done).keys| ==>
      Without(Accumulate(wg, s, source), done).keys[j] != source &&
      Without(Accumulate(wg, s, source), done).keys[j] !in done
    ensures forall b :: Candidate(s, source, b) && SharesCommunity(wg, source, b) && b !in done ==>
      b in Without(Accumulate(wg, s, source), done).keys
  {
    var n := Without(Accumulate(wg, s, source), done);
    NeighbourhoodOf(wg, s, source);
    forall j | 0 <= j < |n.keys|
      ensures n.keys[j] != source && n.keys[j] !in done
    {
      assert n.keys[j] in n.weight;
    }
  }

  /** Every member of `done` has, for each co-member, a link or a trial
      between the two in one direction or the other. */
  ghost predicate CoveredOnce(social: Social, trials: seq<Edge>, done: seq<NodeId>, wg: Graph) {
    forall a, b :: a in done && SharesCommunity(wg, a, b) && a != b ==>
      Linked(social, a, b) || Edge(a, b) in trials || Edge(b, a) in trials
  }

  lemma CoverOnceTurn(before: Social, after: Social, trials: seq<Edge>, done: seq<NodeId>,
                      source: NodeId, n: Neighbors, wg: Graph)
    requires CoveredOnce(before, trials, done, wg)
    requires |before.edges| <= |after.edges| && after.edges[..|before.edges|] == before.edges
    requires forall b :: Candidate(before, source, b) && SharesCommunity(wg, source, b) && b !in done ==>
      b in n.keys
    ensures CoveredOnce(after, trials + Trials(source, n.keys), done + [source], wg)
  {
    var log := trials + Trials(source, n.keys);
    forall a, b | a in done + [source] && SharesCommunity(wg, a, b) && a != b
      ensures Linked(after, a, b) || Edge(a, b) in log || Edge(b, a) in log
    {
      LinkedPersists(before, after, a, b);
      if a in done {
        assert Linked(before, a, b) || Edge(a, b) in trials || Edge(b, a) in trials;
      } else if b in done {
        SharesSymmetric(wg, a, b);
        assert Linked(before, b, a) || Edge(b, a) in trials || Edge(a, b) in trials;
      } else if !Linked(before, a, b) {
        var j :| 0 <= j < |n.keys| && n.keys[j] == b;
        assert log[|trials| + j] == Edge(a, b);
      }
    }
  }

  /** No two trials are on the same unordered pair. */
  predicate PairsOnce(trials: seq<Edge>) {
    forall t, u :: 0 <= t < u < |trials| ==> !SamePair(trials[t], trials[u])
  }

  /** A turn that skips every member whose turn came earlier adds no trial on
      a pair already tried. */
  lemma PairsOnceTurn(trials: seq<Edge>, done: seq<NodeId>, source: NodeId, keys: seq<NodeId>)
    requires PairsOnce(trials)
    requires forall t :: 0 <= t < |trials| ==> trials[t].fromId in done
    requires source !in done && Distinct(keys)
    requires forall j :: 0 <= j < |keys| ==> keys[j] != source && keys[j] !in done
    ensures PairsOnce(trials + Trials(source, keys))
  {
    var log := trials + Trials(source, keys);
    forall t, u | 0 <= t < u < |log|
      ensures !SamePair(log[t], log[u])
    {
      if |trials| <= t {
        assert keys[t - |trials|] != keys[u - |trials|];
      } else if |trials| <= u {
        assert log[t].fromId in done;
        assert log[u].toId !in done;
      }
    }
  }

  /** Where `x` takes its turn among `members`: the index of its first
      occurrence, or `|members|` when it is absent. */
  function Rank(members: seq<NodeId>, x: NodeId): (r: nat)
    ensures r <= |members|
    ensures r < |members| <==> x in members
    ensures r < |members| ==> members[r] == x
    ensures forall k :: 0 <= k < r ==> members[k] != x
  {
    if |members| == 0 then 0
    else if members[0] == x then 0
    else 1 + Rank(members[1..], x)
  }

  /** The log follows the members' turn order: a later trial never comes from
      a member whose turn is earlier than an earlier trial's source. */
  predicate InTurnOrder(trials: seq<Edge>, members: seq<NodeId>) {
    forall t, u :: 0 <= t < u < |trials| ==>
      Rank(members, trials[t].fromId) <= Rank(members, trials[u].fromId)
  }

  /** The `i`-th member's trials, appended after trials from the members
      before it, keep the log in turn order. */
  lemma OrderTurn(trials: seq<Edge>, members: seq<NodeId>, i: nat, keys: seq<NodeId>)
    requires Distinct(members) && i < |members|
    requires InTurnOrder(trials, members)
    requires forall t :: 0 <= t < |trials| ==> trials[t].fromId in members[..i]
    ensures InTurnOrder(trials + Trials(members[i], keys), members)
  {
    var all := trials + Trials(members[i], keys);
    assert Rank(members, members[i]) == i by {
      var r := Rank(members, members[i]);
      assert members[r] == members[i];
    }
    forall t, u | 0 <= t < u < |all|
      ensures Rank(members, all[t].fromId) <= Rank(members, all[u].fromId)
    {
      if u >= |trials| {
        assert all[u].fromId == members[i];
        if t < |trials| {
          var k :| 0 <= k < i && members[k] == trials[t].fromId;
          assert all[t] == trials[t];
        } else {
          assert all[t].fromId == members[i];
        }
      } else {
        assert all[t] == trials[t] && all[u] == trials[u];
      }
    }
  }

  /** The state the generator keeps after the turns of the members `done`:
      no self-loop, one link per pair, one draw per logged trial, a log that
      explains the links, and trials only from `done` toward co-members. */
  ghost predicate Progress(social: Social, trials: seq<Edge>, rnd: Random, rnd': Random,
                           done: seq<NodeId>, wg: Graph, num: Numerics) {
    && NoSelfLoops(social) && AtMostOnePerPair(social)
    && rnd'.draw == rnd.draw && rnd'.pos == rnd.pos + |trials|
    && LogExplains(social, trials, rnd, wg, num)
    && TrialsFrom(trials, done, wg)
  }

  /** One turn of `Generate`, for the `i`-th member, keeps its loop state. */
  lemma TurnAsWritten(wg: Graph, num: Numerics, rnd: Random, members: seq<NodeId>, i: nat,
                      before: Social, after: Social, logged: seq<Edge>, drawn: Random, rnd': Random)
    requires WellFormed(wg) && MemberToCommunity(wg)
    requires Distinct(members) && i < |members|
    requires Progress(before, logged, rnd, drawn, members[..i], wg, num)
    requires Covered(before, logged, members[..i], wg)
    requires Valid(Accumulate(wg, before, members[i]))
    requires Sampled(before, after, members[i], Accumulate(wg, before, members[i]), drawn, num)
    requires rnd'.draw == rnd.draw && rnd'.pos == drawn.pos + |Accumulate(wg, before, members[i]).keys|
    ensures Progress(after, logged + Trials(members[i], Accumulate(wg, before, members[i]).keys),
                     rnd, rnd', members[..i + 1], wg, num)
    ensures Covered(after, logged + Trials(members[i], Accumulate(wg, before, members[i]).keys),
                    members[..i + 1], wg)
  {
    var source := members[i];
    var n := Accumulate(wg, before, source);
    NeighbourhoodOf(wg, before, source);
    assert source !in members[..i];
    AppendFromSource(before, after, source);
    LogTurn(before, after, logged, source, n, rnd, drawn, wg, num);
    TrialsTurn(logged, members[..i], source, n, wg);
    CoverTurn(before, after, logged, members[..i], source, n, wg);
    PrefixStep(members, i);
  }

  /** One turn of `GenerateOnce`, for the `i`-th member, keeps its loop state. */
  lemma TurnOnce(wg: Graph, num: Numerics, rnd: Random, members: seq<NodeId>, i: nat,
                 before: Social, after: Social, logged: seq<Edge>, drawn: Random, rnd': Random)
    requires WellFormed(wg) && MemberToCommunity(wg)
    requires Distinct(members) && i < |members|
    requires Progress(before, logged, rnd, drawn, members[..i], wg, num)
    requires PairsOnce(logged)
    requires CoveredOnce(before, logged, members[..i], wg)
    requires Valid(Without(Accumulate(wg, before, members[i]), members[..i]))
    requires Sampled(before, after, members[i], Without(Accumulate(wg, before, members[i]), members[..i]), drawn, num)
    requires rnd'.draw == rnd.draw &&
      rnd'.pos == drawn.pos + |Without(Accumulate(wg, before, members[i]), members[..i]).keys|
    ensures Progress(after, logged + Trials(members[i], Without(Accumulate(wg, before, members[i]), members[..i]).keys),
                     rnd, rnd', members[..i + 1], wg, num)
    ensures PairsOnce(logged + Trials(members[i], Without(Accumulate(wg, before, members[i]), members[..i]).keys))
    ensures CoveredOnce(after, logged + Trials(members[i], Without(Accumulate(wg, before, members[i]), members[..i]).keys),
                        members[..i + 1], wg)
  {
    var source := members[i];
    var n := Without(Accumulate(wg, before, source), members[..i]);
    UnvisitedNeighbourhood(wg, before, source, members[..i]);
    assert source !in members[..i];
    AppendFromSource(before, after, source);
    LogTurn(before, after, logged, source, n, rnd, drawn, wg, num);
    TrialsTurn(logged, members[..i], source, n, wg);
    CoverOnceTurn(before, after, logged, members[..i], source, n, wg);
    PairsOnceTurn(logged, members[..i], source, n.keys);
    PrefixStep(members, i);
  }
}

=== FILE: weights.dfy ===
/**
  Weight initialisation: every member -> community link ends up carrying a
  number. A number supplied by the caller is kept; any other value is
  replaced by a power-law default computed from the community's degree.
 */
module Weights {
  import opened AffiliationGraph

  /** The floating-point primitives the generator borrows from the JavaScript
      runtime (`Math.pow` and `Math.E`), passed in rather than modelled. */
  datatype Numerics = Numerics(pow: (real, real) -> real, e: real)

  /** The options the generator reads; each is used only when it is a number. */
  datatype Options = Options(scale: Value, coefficient: Value)

  function ScaleOf(o: Options): real {
    match o.scale
    case Number(x) => x
    case NonNumber => 1.3
  }

  function CoefficientOf(o: Options): real {
    match o.coefficient
    case Number(x) => x
    case NonNumber => 0.6
  }

  /** `Math.pow(membersCount, -coefficient) * scale`. */
  function DefaultWeight(num: Numerics, membersCount: nat, o: Options): real {
    num.pow(membersCount as real, -CoefficientOf(o)) * ScaleOf(o)
  }

  /** `1 - Math.pow(Math.E, -weight)`: the chance that two members with
      accumulated weight `weight` are linked. */
  function EdgeProbability(num: Numerics, weight: real): real {
    1.0 - num.pow(num.e, -weight)
  }

  /** The weight a link contributes once initialised. Accumulation only runs
      after initialisation, when every link carries a number. */
  function WeightOf(l: Link): real {
    match l.data
    case Number(x) => x
    case NonNumber => 0.0
  }

  predicate AllNumeric(g: Graph) {
    forall i :: 0 <= i < |g.links| ==> g.links[i].data.Number?
  }

  /** One link after initialisation against graph `g`. */
  function InitLink(g: Graph, l: Link, num: Numerics, o: Options): Link {
    if l.data.Number? then l
    else l.(data := Number(DefaultWeight(num, Degree(g, l.toId), o)))
  }

  /** Initialisation of the whole graph, every link against the input graph. */
  function InitWeights(g: Graph, num: Numerics, o: Options): (r: Graph)
    ensures SameShape(g, r)
    ensures AllNumeric(r)
    ensures forall i :: 0 <= i < |g.links| && g.links[i].data.Number? ==> r.links[i] == g.links[i]
    ensures forall i, j ::
      (&& 0 <= i < |g.links| && 0 <= j < |g.links|
       && !g.links[i].data.Number? && !g.links[j].data.Number?
       && Degree(g, g.links[i].toId) == Degree(g, g.links[j].toId))
      ==> r.links[i].data == r.links[j].data
  {
    Graph(g.nodes, seq(|g.links|, i requires 0 <= i < |g.links| => InitLink(g, g.links[i], num, o)))
  }

  /** The in-place pass of the generator: links are visited in order and each
      one is overwritten before the next is read, so later links see a graph
      whose earlier links already carry weights. The result nevertheless
      agrees with initialising every link against the untouched input. */
  method EnsureWeightsInitialized(g: Graph, num: Numerics, o: Options) returns (r: Graph)
    ensures SameShape(g, r)
    ensures AllNumeric(r)
    ensures forall i :: 0 <= i < |g.links| && g.links[i].data.Number? ==> r.links[i] == g.links[i]
    ensures forall i :: 0 <= i < |g.links| && !g.links[i].data.Number? ==>
      r.links[i].data == Number(DefaultWeight(num, Degree(g, g.links[i].toId), o))
    ensures r == InitWeights(g, num, o)
  {
    r := g;
    var k := 0;
    while k < |g.links|
      invariant 0 <= k <= |g.links|
      invariant SameShape(g, r)
      invariant forall i :: 0 <= i < k ==> r.links[i] == InitLink(g, g.links[i], num, o)
      invariant forall i :: k <= i < |g.links| ==> r.links[i] == g.links[i]
    {
      var l := r.links[k];
      if !l.data.Number? {
        DegreeSameShape(g, r, l.toId);
        var membersCount := Degree(r, l.toId);
        r := r.(links := r.links[k := l.(data := Number(DefaultWeight(num, membersCount, o)))]);
      }
      k := k + 1;
    }
    assert r.links == InitWeights(g, num, o).links;
  }

  /** Running initialisation twice is the same as running it once. */
  lemma InitIdempotent(g: Graph, num: Numerics, o: Options)
    ensures InitWeights(InitWeights(g, num, o), num, o) == InitWeights(g, num, o)
  {
    var once := InitWeights(g, num, o);
    assert InitWeights(once, num, o).links == once.links;
  }

  lemma ProductNonNegative(a: real, b: real)
    requires a >= 0.0 && b >= 0.0
    ensures a * b >= 0.0
  {
  }

  /** If `pow` is non-negative for bases of at least one (the base here is a
      community's member count, never zero), and the scale and supplied weights
      are non-negative, every link weight is non-negative after
      initialisation. */
  lemma InitNonNegative(g: Graph, num: Numerics, o: Options)
    requires forall x, y :: x >= 1.0 ==> num.pow(x, y) >= 0.0
    requires ScaleOf(o) >= 0.0
    requires forall i :: 0 <= i < |g.links| ==> WeightOf(g.links[i]) >= 0.0
    ensures forall i :: 0 <= i < |g.links| ==> WeightOf(InitWeights(g, num, o).links[i]) >= 0.0
  {
    var r := InitWeights(g, num, o);
    forall i | 0 <= i < |g.links|
      ensures WeightOf(r.links[i]) >= 0.0
    {
      if !g.links[i].data.Number? {
        CommunityDegreePositive(g, i);
        var w := num.pow(Degree(g, g.links[i].toId) as real, -CoefficientOf(o));
        var sc := ScaleOf(o);
        ProductNonNegative(w, sc);
        assert WeightOf(r.links[i]) == w * sc;
      }
    }
  }

  /** Every link carries a caller-supplied weight of zero. */
  predicate AllZero(g: Graph) {
    forall i :: 0 <= i < |g.links| ==> g.links[i].data == Number(0.0)
  }
}
